=== FILE: README.md ===
# SPV tax-filing workflow — a Dafny model

The tax system takes one SPV (special-purpose vehicle) through six stages to an
e-filed tax return:

1. data collection;
2. data processing;
3. file generation;
4. distribution of K-1s to investors;
5. approval;
6. e-file submission.

This project models three parts of it.

- **The mock tax service** (`src/services/taxApi.ts`). A filing holds
  header fields, a list of investors (each with an optional K-1 status) and a
  list of forms (each with a form status and an optional download URL). The
  initial current filing is empty. The filing `fetchSPVDetails` builds has
  five pending investors and two pending forms (`1065`, `K-1`).

  The service keeps a module-level "current filing". Each stage operation
  overwrites it with its result before its promise settles, so a call that
  resolves has written it. The mock never rejects; a rejection could only
  come before the write, and it leaves the current filing as it was.
  - Processing, distribution and approval set every form and every
    investor to one status.
  - Generation and submission set every form's status and leave the
    investors untouched. Generation also gives each form a download URL.
- **The page controller** (`src/pages/TaxSystem.tsx`). It holds six
  completion flags and the visible tab. A tab is enabled by the previous
  stage's flag. Next is gated on the visible stage's flag. A screen's
  `onComplete` sets its own flag.
- **The six screens** (`src/components/tax/*.tsx`).
  - Data Collection loads the SPV list and fetches the chosen SPV's filing.
    It never reads the current filing.
  - The other five screens take the service's current filing when they mount.
  - File Generation, File Distribution, Approval and E-File Submission derive
    an "already done" flag from the form statuses at mount. Data Processing
    starts undone.
  - Data Processing, File Distribution and E-File Submission show a progress
    bar as they run. File Distribution also shows a per-investor delivery
    table.
  - File Generation and Approval make a single service call. Approval's call
    sits behind three confirmation checkboxes.
  - Each screen's `handleComplete` lets completion through only once its
    stage is done: data loaded, or the stage's done flag set.

## How it is modelled

Records are immutable datatypes:
- `TaxData.Filing`, `TaxData.Investor` and `TaxData.TaxForm`;
- the status enums, ranked `pending < generated < distributed < approved < submitted`;
- one `State` per screen, plus `TaxSystem.Page`.

Every handler is a pure function or a method from the old state to the new state:
- The service's current filing is a value called `store`. A handler takes it
  and returns it.
- A service call that may reject takes an `ok: bool`. With `ok` false the
  call returns `store` unchanged.
- The e-file reply is a `Reply`: either `Rejected`, or resolved with
  `success` and `confirmationId`.
- The random numbers are subset-typed parameters with the code's ranges:
  - entity tax number 1000000..9999999;
  - investor tax number 1000..9999;
  - confirmation number 100000..999999.
- The current year is a `nat` parameter.
- An async handler, with its awaited delays, is one atomic step. Its
  intermediate progress values come back as a trace.
- Progress is `floor(done * 100 / total)` on integers.

`Workflow` puts the pieces together.
- `Workflow.HappyPath` runs the whole page from the first tab to a submitted
  return.
- `Workflow.RefetchAfterCompletion` shows that the completion flags do not
  follow the filing. Fetching again after completion resets every status to
  pending while all six flags stay true.
- `Workflow.GenerationSkippedAfterProcessing` records a consequence of the
  code. Processing already sets every form to `generated`. So File Generation
  mounts as already generated, with its start button disabled, and on the
  normal path `generateTaxFiles` is never called. No form ever receives a
  download URL (`HappyPath` ends with every `downloadUrl` absent).

The code has no guard for any of the following, and the model follows the code:
- No status is guarded against moving backwards. `generateTaxFiles` sets a
  `submitted` form back to `generated` (`TaxApi.GenerateCanRegress`).
- A second run is not an error. Within one mount of a screen, the disabled
  start buttons prevent it. Each screen's `StartEnabled` models them, and Data
  Collection's fetch button is modelled by `CollectionScreen.FetchEnabled`.
  Across mounts nothing prevents it. The tabs unmount a screen that is not
  visible, so Previous then Next in the middle of a run remounts it with its
  flags false and its start button enabled again.
- A tab can be revisited freely.
- Fetching again replaces the filing without clearing any flag.

Two further code facts the model keeps:
- The E-File screen does not store the submitted filing in its own state. Only
  the service's copy becomes `submitted`.
- Data Processing does not derive `processed` from the filing when it mounts.

## Model

| member | source | states |
|---|---|---|
| TaxData.RanksAreFaithful | src/services/taxApi.ts:19-25 | the five form statuses have distinct ranks; every K-1 status ranks below `submitted` |
| TaxData.WithFormStatus | src/services/taxApi.ts:87-90 | mapping a status over the forms keeps every form's id, type and URL and its position, and leaves every form at that status |
| TaxData.WithK1Status | src/services/taxApi.ts:91-94 | mapping a K-1 status over the investors keeps every investor's id, name, tax id and email, and leaves every investor at that status |
| TaxData.FormsDetermined | src/services/taxApi.ts:87-90 | any form list that agrees with the input apart from status and has every form at `s` is exactly the mapped list |
| TaxData.InvestorsDetermined | src/services/taxApi.ts:91-94 | any investor list that agrees with the input apart from status and has every investor at `k` is exactly the mapped list |
| TaxData.AtLeastFacts | src/components/tax/FileGeneration.tsx:25-28 | "every form is at s" implies "every form is at least s", and "at least" weakens down the status order |
| TaxData.FormatFormType | src/components/tax/Approval.tsx:105-109 | `1065` and `K-1` map to their long labels; any other string is returned unchanged |
| TaxData.FormatFormTypeIdempotent | src/components/tax/FileGeneration.tsx:84-88 | formatting an already formatted label changes nothing |
| Decimal.NatToString | src/services/taxApi.ts:62-66 | the decimal rendering of a number is a non-empty digit string with no leading zero |
| Decimal.RoundTrip | src/services/taxApi.ts:178 | reading the rendered digits back gives the number |
| Decimal.Injective | src/services/taxApi.ts:64 | distinct numbers render to distinct strings |
| Decimal.Length | src/services/taxApi.ts:178 | a number in [10^(k-1), 10^k) renders to exactly k digits |
| TaxApi.EntityNameFor | src/services/taxApi.ts:61 | an id not in the SPV list names `""`; otherwise the name is that of the first SPV carrying the id |
| TaxApi.EntityNameOfMockSpvs | src/services/taxApi.ts:30-34 | the three mock ids name their three funds; every other id names `""` |
| TaxApi.FetchSPVs | src/services/taxApi.ts:48-53 | the list has three SPVs with distinct ids and non-empty names, and looking up each id gives the name listed beside it |
| TaxApi.GetCurrentTaxData | src/services/taxApi.ts:185-187 | definition: the service's current filing, i.e. the `store` value that the last call wrote (initially the empty filing) |
| TaxApi.NewInvestor | src/services/taxApi.ts:63-69 | definition: the `i`-th fetched investor: id `inv-<i+100>`, name `Investor <i+1>`, tax id `XXX-XX-` plus the drawn number, email `investor<i+1>@example.com`, K-1 status pending |
| TaxApi.FetchSPVDetails | src/services/taxApi.ts:55-79 | the fetched filing carries the id, the current year, the looked-up name and `XX-` plus the drawn number. It has five pending investors with distinct ids, and two pending forms (`1065`, `K-1`) with no download URL |
| TaxApi.InvestorIdsDistinct | src/services/taxApi.ts:63-69 | the five generated investors have pairwise distinct ids |
| TaxApi.ProcessTaxData | src/services/taxApi.ts:82-100 | header, order and every non-status field are kept; every form becomes `generated` and every investor `generated` |
| TaxApi.DownloadUrl | src/services/taxApi.ts:111 | definition: the generated form's URL `https://example.com/tax/<spvId>/<formType>.pdf` |
| TaxApi.GenerateTaxFiles | src/services/taxApi.ts:103-118 | header and investors are unchanged; every form keeps id and type, becomes `generated`, and gets the URL `https://example.com/tax/<spvId>/<formType>.pdf` |
| TaxApi.DistributeTaxFiles | src/services/taxApi.ts:121-139 | header and every non-status field are kept; all forms and all investors become `distributed` |
| TaxApi.ApproveTaxFiling | src/services/taxApi.ts:142-160 | header and every non-status field are kept; all forms and all investors become `approved` |
| TaxApi.SubmittedFiling | src/services/taxApi.ts:163-174 | header and investors are unchanged; every form keeps its fields and becomes `submitted` |
| TaxApi.SubmitResponse | src/services/taxApi.ts:175-181 | the reply succeeds, and its confirmation id is `EFILE-` followed by six digits (no leading zero) whose value is the drawn number |
| TaxApi.FullRunAdvances | src/services/taxApi.ts:55-181 | fetch, process, generate, distribute, approve, submit never lowers a form's status, and ends with two submitted forms and five approved investors |
| TaxApi.GenerateCanRegress | src/services/taxApi.ts:103-113 | some filing has a form that `generateTaxFiles` moves backwards, because the operation has no monotonicity guard |
| TaxSystem.TabValuesDistinct | src/pages/TaxSystem.tsx:52-90 | the six tab values, and the six positions, identify their stages |
| TaxSystem.UpdateTaxStatus | src/pages/TaxSystem.tsx:29-31 | a patch sets exactly the flags it names; every other flag keeps its value |
| TaxSystem.CompletionPatch | src/pages/TaxSystem.tsx:92-126 | each screen's `onComplete` names its own flag, set to true, and no other |
| TaxSystem.CompleteSetsOneFlag | src/pages/TaxSystem.tsx:92-126 | completing a stage makes its flag true and leaves all other flags alone |
| TaxSystem.TabGating | src/pages/TaxSystem.tsx:53-90 | the first tab is always enabled; any other tab is enabled exactly when the previous stage's flag is true |
| TaxSystem.TabEnabled | src/pages/TaxSystem.tsx:53-90 | definition: the negated `disabled` attribute of each of the six tab triggers |
| TaxSystem.SelectTab | src/pages/TaxSystem.tsx:25-27 | clicking an enabled tab shows it and a disabled one changes nothing; the flags are untouched |
| TaxSystem.Previous | src/pages/TaxSystem.tsx:130-142 | Previous moves back one tab, except on the first tab where nothing changes; no flag changes |
| TaxSystem.Next | src/pages/TaxSystem.tsx:144-164 | Next moves forward one tab exactly when the visible stage is complete, otherwise it stays and raises "Step Incomplete". It does nothing on the last tab |
| TaxSystem.NextDisabled | src/pages/TaxSystem.tsx:165 | definition: Next is disabled exactly on the E-File tab once `submitted` is true |
| TaxSystem.NextDisabledIsInert | src/pages/TaxSystem.tsx:165 | where Next is disabled, pressing it would change nothing |
| TaxSystem.Complete | src/pages/TaxSystem.tsx:92-126 | the visible screen's completion keeps the tab, sets its stage's flag and raises "Status Updated" |
| TaxSystem.Step | src/pages/TaxSystem.tsx:25-165 | definition: a tab click, Previous, Next, or the visible screen's `onComplete` applied to the page |
| TaxSystem.Run | src/pages/TaxSystem.tsx:25-165 | definition: the page after a sequence of those events, in order |
| TaxSystem.ValidMeansPrefix | src/pages/TaxSystem.tsx:53-164 | under the invariant, the true flags are exactly the first CompletedCount stages, and the visible tab index is at most that count |
| TaxSystem.InitialPageValid | src/pages/TaxSystem.tsx:15-23 | the page starts on data collection with no stage complete, satisfying the invariant |
| TaxSystem.StepKeepsValid | src/pages/TaxSystem.tsx:53-165 | tab clicks, Previous, Next and a completion each keep the prefix invariant |
| TaxSystem.StepMonotone | src/pages/TaxSystem.tsx:92-126 | no event sets a flag back to false |
| TaxSystem.RunKeepsValid | src/pages/TaxSystem.tsx:53-165 | any sequence of events keeps the prefix invariant |
| TaxSystem.RunMonotone | src/pages/TaxSystem.tsx:92-126 | over any sequence of events, a true flag stays true |
| TaxSystem.ReachableInvariant | src/pages/TaxSystem.tsx:15-165 | every page reachable from the initial one has prefix flags and a visible tab index at most the number of completed stages |
| Progress.Percent | src/components/tax/DataProcessing.tsx:82 | the floored percentage is at most 100, below 100 before the end and exactly 100 at the end |
| Progress.PercentMonotone | src/components/tax/FileDistribution.tsx:86 | more work done never shows a smaller percentage |
| Progress.EvenTraceShape | src/components/tax/FileDistribution.tsx:67-87 | entry k of the trace is floor(100k/n); the trace never decreases and stays within floor(100i/n) ≤ 100 |
| CollectionScreen.Initial | src/components/tax/DataCollection.tsx:16-27 | the screen starts with no list, no selection, no data, not loading, and fetching the list |
| CollectionScreen.FetchSpvs | src/components/tax/DataCollection.tsx:29-44 | the list is stored on success and kept on failure; fetching ends false either way; nothing else changes |
| CollectionScreen.SelectSpv | src/components/tax/DataCollection.tsx:103-118 | picking a listed SPV while the list is loaded selects its id; otherwise nothing changes |
| CollectionScreen.SetTaxYear | src/components/tax/DataCollection.tsx:126-127 | definition: the year field records the typed string and changes nothing else |
| CollectionScreen.FetchEnabled | src/components/tax/DataCollection.tsx:133-136 | definition: the fetch button is enabled exactly when an SPV is selected and no fetch is loading |
| CollectionScreen.FetchSpvDetails | src/components/tax/DataCollection.tsx:46-74 | with no selection nothing happens. Otherwise loading ends false. On success the service's filing and `spvData` both become the fetched filing; on failure both are kept as they were |
| CollectionScreen.HandleComplete | src/components/tax/DataCollection.tsx:76-91 | definition: completion is let through exactly when SPV data has been loaded |
| CollectionScreen.InitialValid | src/components/tax/DataCollection.tsx:16-27 | the initial screen satisfies the screen invariant |
| CollectionScreen.ActionsKeepValid | src/components/tax/DataCollection.tsx:29-131 | every action keeps the invariant: the list is the mock list, the selection is listed, and loaded data is a fresh filing of a listed SPV with its name |
| CollectionScreen.CompleteMeansLoaded | src/components/tax/DataCollection.tsx:76-91 | when completion is let through, the screen holds a fresh filing of a real SPV with a non-empty name |
| ProcessingScreen.TotalTime | src/components/tax/DataProcessing.tsx:58 | definition: the sum of the steps' times |
| ProcessingScreen.CumulativeValues | src/components/tax/DataProcessing.tsx:30-36 | the step weights add up to 0, 2, 5, 7, 11, 14 and the total is 14 |
| ProcessingScreen.StepPercents | src/components/tax/DataProcessing.tsx:57-83 | after each step the progress is 14, 35, 50, 78, 100 |
| ProcessingScreen.Mount | src/components/tax/DataProcessing.tsx:21-27 | the screen holds the current filing only if it has an SPV id, starts idle and unprocessed at 0 with every step pending |
| ProcessingScreen.MarkStep | src/components/tax/DataProcessing.tsx:64-78 | only the step with the given id gets the new status; every other step is unchanged |
| ProcessingScreen.MarkStepTouchesOne | src/components/tax/DataProcessing.tsx:64-78 | with distinct ids, marking by id is an update at one position |
| ProcessingScreen.RunStep | src/components/tax/DataProcessing.tsx:60-83 | one iteration advances the table from "first i steps completed" to "first i + 1 steps completed" |
| ProcessingScreen.StartProcessing | src/components/tax/DataProcessing.tsx:40-106 | with no filing nothing changes. Otherwise every step ends completed, progress passes through the weighted percentages and ends at 100. On success the service's filing and the screen's become the processed one and `processed` becomes true; on failure the filing is kept as it was |
| ProcessingScreen.RunTraceValues | src/components/tax/DataProcessing.tsx:50-105 | a run's progress trace is exactly 0, 14, 35, 50, 78, 100, 100: non-decreasing, and below 100 before the last step |
| ProcessingScreen.StartEnabled | src/components/tax/DataProcessing.tsx:169-172 | definition: the start button is enabled exactly when neither processing nor processed |
| ProcessingScreen.HandleComplete | src/components/tax/DataProcessing.tsx:108-123 | definition: completion is let through exactly when `processed` |
| ProcessingScreen.MountValid | src/components/tax/DataProcessing.tsx:21-27 | a freshly mounted screen satisfies its invariant and does not let completion through |
| ProcessingScreen.StartProcessingValid | src/components/tax/DataProcessing.tsx:85-123 | a run keeps "processed means every form and investor is generated"; success lets completion through and disables the start button, failure changes nothing about completion |
| GenerationScreen.AllGenerated | src/components/tax/FileGeneration.tsx:25-28 | definition: every form is `generated`, `distributed`, `approved` or `submitted` |
| GenerationScreen.AllGeneratedMeansAtLeast | src/components/tax/FileGeneration.tsx:25-28 | "already generated" holds exactly when every form is at least `generated`, i.e. none is pending |
| GenerationScreen.Mount | src/components/tax/FileGeneration.tsx:19-31 | with an SPV id the screen holds the filing and is generated iff no form is pending; otherwise it holds nothing and is not generated |
| GenerationScreen.GenerateFiles | src/components/tax/FileGeneration.tsx:33-65 | with no filing nothing changes. Otherwise generating ends false. On success the service's filing becomes the generated one and the screen takes it and becomes generated; on failure the service's filing and the screen are kept as they were |
| GenerationScreen.StartEnabled | src/components/tax/FileGeneration.tsx:144-147 | definition: the start button is enabled exactly when neither generating nor generated |
| GenerationScreen.HandleComplete | src/components/tax/FileGeneration.tsx:67-82 | definition: completion is let through exactly when `generated` |
| GenerationScreen.MountValid | src/components/tax/FileGeneration.tsx:19-31 | a freshly mounted screen satisfies "generated means nothing pending" |
| GenerationScreen.GenerateFilesValid | src/components/tax/FileGeneration.tsx:43-82 | generation keeps the invariant; success lets completion through, failure leaves completion as it was |
| GenerationScreen.MountDisablesRegeneration | src/components/tax/FileGeneration.tsx:144-147 | a screen mounted on a filing with no pending form has its start button disabled |
| DistributionScreen.AllDistributed | src/components/tax/FileDistribution.tsx:29-31 | definition: every form is `distributed`, `approved` or `submitted` |
| DistributionScreen.AllDistributedMeansAtLeast | src/components/tax/FileDistribution.tsx:29-32 | "already distributed" holds exactly when every form is at least `distributed`, and holds for no forms |
| DistributionScreen.InitialDelivery | src/components/tax/FileDistribution.tsx:38-39 | definition: an investor starts `sent` when its K-1 is `distributed` or `approved`, and `pending` otherwise |
| DistributionScreen.InitialStatusMap | src/components/tax/FileDistribution.tsx:35-42 | the mount-time status table has an entry for exactly the investors' ids |
| DistributionScreen.InitialStatusMapValues | src/components/tax/FileDistribution.tsx:37-40 | each investor's entry comes from the last investor with that id |
| DistributionScreen.InitialEntryMeaning | src/components/tax/FileDistribution.tsx:38-39 | with distinct ids, an investor reads `sent` exactly when its K-1 is distributed or approved |
| DistributionScreen.Mount | src/components/tax/FileDistribution.tsx:23-44 | with an SPV id the screen holds the filing, is distributed iff every form is at least `distributed`, and builds the table; otherwise it is empty |
| DistributionScreen.SendTo | src/components/tax/FileDistribution.tsx:71-83 | sending to one investor marks that id `sent` and leaves every other entry unchanged |
| DistributionScreen.SendAdvancesTable | src/components/tax/FileDistribution.tsx:67-84 | sending to investor i turns the table "first i sent" into "first i + 1 sent" |
| DistributionScreen.DistributeFiles | src/components/tax/FileDistribution.tsx:46-110 | with no filing nothing changes. Otherwise every investor ends `sent`, progress passes through floor(100k/n) non-decreasingly to 100. On success the service's filing and the screen's become the distributed one and `distributed` becomes true; on failure the filing is kept as it was |
| DistributionScreen.StartEnabled | src/components/tax/FileDistribution.tsx:193-196 | definition: the start button is enabled exactly when neither distributing nor distributed |
| DistributionScreen.HandleComplete | src/components/tax/FileDistribution.tsx:112-127 | definition: completion is let through exactly when `distributed` |
| DistributionScreen.MountValid | src/components/tax/FileDistribution.tsx:23-44 | a freshly mounted screen satisfies its invariant |
| DistributionScreen.DistributeFilesValid | src/components/tax/FileDistribution.tsx:89-127 | a run keeps the invariant; success lets completion through, and a rejection leaves the screen undistributed even though every entry reads `sent` |
| ApprovalScreen.AllChecksConfirmed | src/components/tax/Approval.tsx:41 | definition: every confirmation check is ticked |
| ApprovalScreen.AllChecksConfirmedMeans | src/components/tax/Approval.tsx:21-41 | all checks are confirmed exactly when the three boxes are ticked; the initial boxes are not |
| ApprovalScreen.HandleCheckChange | src/components/tax/Approval.tsx:111-116 | toggling flips the named check and no other |
| ApprovalScreen.ToggleTwice | src/components/tax/Approval.tsx:111-116 | toggling the same check twice restores the checks |
| ApprovalScreen.AllApproved | src/components/tax/Approval.tsx:34-36 | definition: every form is `approved` or `submitted` |
| ApprovalScreen.AllApprovedMeansAtLeast | src/components/tax/Approval.tsx:34-37 | "already approved" holds exactly when every form is at least `approved` |
| ApprovalScreen.Mount | src/components/tax/Approval.tsx:17-39 | the screen starts with unticked boxes and a closed dialog; with an SPV id it holds the filing and is approved iff every form is approved or submitted |
| ApprovalScreen.SetDialogOpen | src/components/tax/Approval.tsx:168 | definition: the dialog's open-change handler records whether the dialog is open |
| ApprovalScreen.ToggleCheck | src/components/tax/Approval.tsx:191-227 | definition: a checkbox click applies `handleCheckChange` to its check and changes nothing else |
| ApprovalScreen.ApproveTaxFiling | src/components/tax/Approval.tsx:43-86 | the dialog closes. With no filing or an unticked box nothing else happens. Otherwise approving ends false. On success the service's filing becomes the approved one and the screen takes it and becomes approved; on failure the service's filing and the screen's are kept as they were |
| ApprovalScreen.StartEnabled | src/components/tax/Approval.tsx:168-171 | definition: the approve trigger is enabled exactly when neither approving nor approved |
| ApprovalScreen.HandleComplete | src/components/tax/Approval.tsx:88-103 | definition: completion is let through exactly when `approved` |
| ApprovalScreen.MountValid | src/components/tax/Approval.tsx:28-39 | a freshly mounted screen satisfies its invariant |
| ApprovalScreen.ApproveValid | src/components/tax/Approval.tsx:43-103 | approval keeps the invariant; afterwards completion is let through only if it already was or the call succeeded with every box ticked, and such a success always lets it through |
| EFileScreen.Mount | src/components/tax/EFileSubmission.tsx:23-32 | the screen starts idle at 0 with no confirmation id; with an SPV id it holds the filing and is submitted iff every form is submitted |
| EFileScreen.PhasePercents | src/components/tax/EFileSubmission.tsx:57-61 | the six phases show 16, 33, 50, 66, 83, 100 after the initial 0 |
| EFileScreen.SubmitEFile | src/components/tax/EFileSubmission.tsx:34-88 | with no filing nothing changes. Otherwise all six phase labels and percentages are shown. Any resolved reply comes after the service's forms became submitted; a rejected one leaves the service's filing as it was. A successful reply sets the confirmation id and `submitted`; a failed or rejected one sets neither |
| EFileScreen.StartEnabled | src/components/tax/EFileSubmission.tsx:178-181 | definition: the submit button is enabled exactly when neither submitting nor submitted |
| EFileScreen.HandleComplete | src/components/tax/EFileSubmission.tsx:90-105 | definition: completion is let through exactly when `submitted` |
| EFileScreen.MountValid | src/components/tax/EFileSubmission.tsx:23-32 | a freshly mounted screen satisfies "submitted means the service's forms are submitted" |
| EFileScreen.SubmitEFileValid | src/components/tax/EFileSubmission.tsx:63-105 | a submission keeps the invariant; success lets completion through and disables the button, failure leaves completion as it was |
| Workflow.NothingBeforeFetch | src/services/taxApi.ts:37-44 | before any fetch the current filing is empty, and no screen past the first can complete |
| Workflow.GenerationSkippedAfterProcessing | src/components/tax/FileGeneration.tsx:19-31 | after processing, File Generation mounts already generated with its start button disabled, yet lets completion through |
| Workflow.CompleteAndAdvance | src/pages/TaxSystem.tsx:92-164 | completing the visible stage and pressing Next sets that flag alone and moves one tab forward |
| Workflow.CollectStage | src/components/tax/DataCollection.tsx:29-91 | on the first tab: loading the list, choosing `spv-001` and fetching it with success leaves the service holding that SPV's fresh filing, sets `collected` alone and moves to Data Processing |
| Workflow.ProcessStage | src/components/tax/DataProcessing.tsx:21-123 | a successful processing run on a fetched filing leaves the service holding the processed filing, sets `processed` alone and moves to File Generation |
| Workflow.GenerateStage | src/components/tax/FileGeneration.tsx:19-82 | on a filing with no pending form the screen completes without any service call, sets `filesGenerated` alone and moves to File Distribution |
| Workflow.DistributeStage | src/components/tax/FileDistribution.tsx:23-127 | a successful distribution leaves the service holding the distributed filing, sets `filesDistributed` alone and moves to Approval |
| Workflow.ApproveStage | src/components/tax/Approval.tsx:28-116 | ticking the three boxes and approving with success leaves the service holding the approved filing, sets `approved` alone and moves to E-File Submission |
| Workflow.SubmitStage | src/components/tax/EFileSubmission.tsx:23-105 | submitting with the mock's reply leaves the service with every form submitted, shows a well-formed confirmation id, sets `submitted` alone and stays on the last tab |
| Workflow.HappyPath | src/pages/TaxSystem.tsx:15-165 | with every call succeeding, the page ends on the last tab with all six flags true. Both forms are submitted, all five investors approved, the confirmation id is well formed, and no form has a download URL |
| Workflow.RefetchAfterCompletion | src/components/tax/DataCollection.tsx:46-74 | fetching again after a full run leaves every flag true while the filing is back to all pending |

## Left out

- JSX markup, toasts, icons (`getStatusIcon` and its unused `error` status) and the clipboard copy are not modelled. Toasts appear only as the page's `Toast` value.
- Timers and React's batched state updates are not modelled. Each handler is one atomic step, so a click between two awaits of a running handler is not modelled. Within one mount the disabled buttons rule out a second start.
- Overlapping runs across a remount are not modelled. Previous then Next during a run unmounts and remounts the screen with its flags false, so a second run can start while the first is still awaiting. The model completes each run before the next event, so the two runs' writes to the current filing and their late `setState` calls on the unmounted screen never interleave.
- `Math.random` and `new Date()` are not modelled. They are parameters restricted to the code's ranges.
- The server, the Prisma services, `apiClient`, `useApi`, `src/lib/api.ts`, `src/types/api.ts` and the `ApiTest`, `Index` and `SystemOverview` pages are not part of this model.
- A rejected `fetchSPVs` is modelled only by `ok = false`. The mock never rejects it.
- The tax-year input is stored but never used by the fetch, which takes the current year. `CollectionScreen.SetTaxYear` only records the string.
- `DistributionScreen.DistributeFiles`: progress is computed as the integer `floor(100(i+1)/n)`. The code computes `Math.floor(((i+1)/n)*100)` in floating point, which can come out one lower for some investor counts (29 of 100 gives 28). The two agree for the five investors the service returns.
- `ProcessingScreen.StartProcessing` and `EFileScreen.SubmitEFile` also use integer percentages. The two agree with the code for these constant step weights and for the six phases.
- `ProcessingScreen.StartProcessing`: the transient `processing` status of a step shows up only inside `RunStep`. The returned table is the one after the loop.
- `DistributionScreen.DistributeFiles`: an investor's transient `sending` entry appears only inside `SendTo`, between its two updates. No contract or trace exposes it; the returned table is the one after the loop, with every entry `sent`.

=== FILE: approval_screen.dfy ===
/** The Approval screen: three confirmation checks, then `approveTaxFiling`. */
module ApprovalScreen {
  import opened Optional
  import opened TaxData
  import opened TaxApi

  /** `confirmationChecks`. */
  datatype Checks = Checks(reviewedForms: bool, allInfoCorrect: bool, authorizeSubmission: bool)

  const Unchecked := Checks(false, false, false)

  /** A key of `confirmationChecks`. */
  datatype CheckName = ReviewedForms | AllInfoCorrect | AuthorizeSubmission

  function Check(c: Checks, n: CheckName): bool {
    match n
    case ReviewedForms => c.reviewedForms
    case AllInfoCorrect => c.allInfoCorrect
    case AuthorizeSubmission => c.authorizeSubmission
  }

  /** `Object.values(confirmationChecks)`. */
  function Values(c: Checks): seq<bool> {
    [c.reviewedForms, c.allInfoCorrect, c.authorizeSubmission]
  }

  /** `Object.values(confirmationChecks).every(check => check)`. */
  predicate AllChecksConfirmed(c: Checks) {
    forall i :: 0 <= i < |Values(c)| ==> Values(c)[i]
  }

  /** All checks are confirmed exactly when each of the three named checks is; none is at first. */
  lemma AllChecksConfirmedMeans(c: Checks)
    ensures AllChecksConfirmed(c) <==> c.reviewedForms && c.allInfoCorrect && c.authorizeSubmission
    ensures AllChecksConfirmed(c) <==> forall n :: Check(c, n)
    ensures !AllChecksConfirmed(Unchecked)
  {
    var v := Values(c);
    assert v[0] == c.reviewedForms && v[1] == c.allInfoCorrect && v[2] == c.authorizeSubmission;
    assert Check(c, ReviewedForms) == v[0] && Check(c, AllInfoCorrect) == v[1];
    assert Check(c, AuthorizeSubmission) == v[2];
    assert !Values(Unchecked)[0];
  }

  /** `handleCheckChange`: flip the named check. */
  function HandleCheckChange(c: Checks, n: CheckName): (r: Checks)
    ensures Check(r, n) == !Check(c, n)
    ensures forall m :: m != n ==> Check(r, m) == Check(c, m)
  {
    match n
    case ReviewedForms => c.(reviewedForms := !c.reviewedForms)
    case AllInfoCorrect => c.(allInfoCorrect := !c.allInfoCorrect)
    case AuthorizeSubmission => c.(authorizeSubmission := !c.authorizeSubmission)
  }

  /** Ticking a box twice restores the checks. */
  lemma ToggleTwice(c: Checks, n: CheckName)
    ensures HandleCheckChange(HandleCheckChange(c, n), n) == c
  {
  }

  datatype State = State(
    approving: bool,
    approved: bool,
    taxData: Option<Filing>,
    checks: Checks,
    dialogOpen: bool)

  /** The mount-time check: every form is `approved` or `submitted`. */
  predicate AllApproved(forms: seq<TaxForm>) {
    forall i :: 0 <= i < |forms| ==> forms[i].status == Approved || forms[i].status == Submitted
  }

  lemma AllApprovedMeansAtLeast(forms: seq<TaxForm>)
    ensures AllApproved(forms) <==> AllFormsAtLeast(forms, Approved)
  {
  }

  /** The screen as it mounts on the current filing. */
  function Mount(current: Filing): (s: State)
    ensures !s.approving && !s.dialogOpen && s.checks == Unchecked
    ensures HasSpv(current) ==> s.taxData == Some(current) && s.approved == AllApproved(current.taxForms)
    ensures !HasSpv(current) ==> s.taxData == None && !s.approved
  {
    State(false, HasSpv(current) && AllApproved(current.taxForms),
          if HasSpv(current) then Some(current) else None, Unchecked, false)
  }

  /** The dialog's `onOpenChange`. */
  function SetDialogOpen(s: State, open: bool): State {
    s.(dialogOpen := open)
  }

  /** A tick in the dialog. */
  function ToggleCheck(s: State, n: CheckName): State {
    s.(checks := HandleCheckChange(s.checks, n))
  }

  /**
   * `approveTaxFiling`, whose service call resolves when `ok` and rejects
   * otherwise, leaving the current filing as it was. It closes the dialog first; without a filing or with a check
   * missing it stops there and the service is not called.
   */
  function ApproveTaxFiling(s: State, store: Filing, ok: bool): (r: Effect<State>)
    ensures !r.screen.dialogOpen && r.screen.checks == s.checks
    ensures s.taxData.None? || !AllChecksConfirmed(s.checks) ==>
              r == Effect(s.(dialogOpen := false), store)
    ensures s.taxData.Some? && AllChecksConfirmed(s.checks) ==>
              && r.store == (if ok then TaxApi.ApproveTaxFiling(s.taxData.value) else store)
              && !r.screen.approving
              && r.screen.approved == (s.approved || ok)
              && r.screen.taxData == (if ok then Some(r.store) else s.taxData)
  {
    var closed := s.(dialogOpen := false);
    if closed.taxData.None? || !AllChecksConfirmed(closed.checks) then Effect(closed, store)
    else
      var updated := TaxApi.ApproveTaxFiling(closed.taxData.value);
      if ok then Effect(closed.(taxData := Some(updated), approved := true, approving := false), updated)
      else Effect(closed.(approving := false), store)
  }

  /** `disabled={approving || approved}` on the dialog trigger, negated. */
  predicate StartEnabled(s: State) {
    !(s.approving || s.approved)
  }

  /** Whether `handleComplete` calls `onComplete`. */
  function HandleComplete(s: State): bool {
    s.approved
  }

  /** `approved` is only ever true with a filing whose forms are all `approved` or beyond. */
  predicate Valid(s: State) {
    s.approved ==> s.taxData.Some? && AllFormsAtLeast(s.taxData.value.taxForms, Approved)
  }

  lemma MountValid(current: Filing)
    ensures Valid(Mount(current))
  {
    AllApprovedMeansAtLeast(current.taxForms);
  }

  /** Approval keeps the invariant; the screen completes only after a confirmed, successful call. */
  lemma ApproveValid(s: State, store: Filing, ok: bool)
    requires Valid(s)
    ensures Valid(ApproveTaxFiling(s, store, ok).screen)
    ensures HandleComplete(ApproveTaxFiling(s, store, ok).screen) ==>
              HandleComplete(s) || (ok && AllChecksConfirmed(s.checks))
    ensures s.taxData.Some? && AllChecksConfirmed(s.checks) && ok ==>
              HandleComplete(ApproveTaxFiling(s, store, ok).screen)
  {
  }
}

=== FILE: collection_screen.dfy ===
/**
 * The Data Collection screen: load the SPV list, pick one, fetch its filing.
 */
module CollectionScreen {
  import opened Optional
  import opened Decimal
  import opened TaxData
  import opened TaxApi

  datatype State = State(
    spvs: seq<SpvSummary>,
    selectedSpv: string,
    taxYear: string,
    loading: bool,
    fetchingSpvs: bool,
    spvData: Option<Filing>)

  /** The screen's first render, with the clock's year in the year field and the SPV list loading. */
  function Initial(year: nat): (s: State)
    ensures s.fetchingSpvs && !s.loading && s.spvs == [] && s.selectedSpv == "" && s.spvData == None
  {
    State([], "", NatToString(year), false, true, None)
  }

  /** `fetchSpvs`, which the mount effect runs; `ok` says whether `fetchSPVs` resolved. */
  function FetchSpvs(s: State, ok: bool): (r: State)
    ensures !r.fetchingSpvs
    ensures r.spvs == (if ok then FetchSPVs() else s.spvs)
    ensures r.(spvs := s.spvs, fetchingSpvs := s.fetchingSpvs) == s
  {
    s.(spvs := if ok then FetchSPVs() else s.spvs, fetchingSpvs := false)
  }

  /** Picking the `k`-th listed SPV; the select is disabled while the list loads. */
  function SelectSpv(s: State, k: nat): (r: State)
    ensures !s.fetchingSpvs && k < |s.spvs| ==> r == s.(selectedSpv := s.spvs[k].id)
    ensures s.fetchingSpvs || k >= |s.spvs| ==> r == s
  {
    if !s.fetchingSpvs && k < |s.spvs| then s.(selectedSpv := s.spvs[k].id) else s
  }

  /** The tax-year field's `onChange`; the value is never sent to the service. */
  function SetTaxYear(s: State, value: string): State {
    s.(taxYear := value)
  }

  /** `disabled={!selectedSpv || loading}` on the fetch button, negated. */
  predicate FetchEnabled(s: State) {
    s.selectedSpv != "" && !s.loading
  }

  /**
   * `fetchSpvDetails`, whose `fetchSPVDetails` call resolves when `ok` and
   * rejects otherwise; a rejection leaves the current filing as it was. With
   * nothing selected it returns before calling the service.
   */
  function FetchSpvDetails(s: State, store: Filing, ok: bool, year: nat, entityDraw: EntityTaxNumber,
                           investorDraw: nat -> InvestorTaxNumber): (r: Effect<State>)
    ensures s.selectedSpv == "" ==> r == Effect(s, store)
    ensures s.selectedSpv != "" ==>
              && r.store == (if ok then FetchSPVDetails(s.selectedSpv, year, entityDraw, investorDraw) else store)
              && !r.screen.loading
              && r.screen.spvData == (if ok then Some(r.store) else s.spvData)
              && r.screen.(loading := s.loading, spvData := s.spvData) == s
  {
    if s.selectedSpv == "" then Effect(s, store)
    else
      var data := FetchSPVDetails(s.selectedSpv, year, entityDraw, investorDraw);
      if ok then Effect(s.(loading := false, spvData := Some(data)), data)
      else Effect(s.(loading := false), store)
  }

  /** Whether `handleComplete` calls `onComplete`. */
  function HandleComplete(s: State): bool {
    s.spvData.Some?
  }

  /** The ids of a list of SPVs. */
  predicate Listed(spvs: seq<SpvSummary>, id: string) {
    exists j :: 0 <= j < |spvs| && spvs[j].id == id
  }

  /**
   * The list is empty or the service's list, the selection (if any) is a
   * listed SPV, and any loaded filing is a fresh one for a listed SPV, named
   * after it.
   */
  ghost predicate Valid(s: State) {
    && (s.spvs == [] || s.spvs == MockSpvs)
    && (s.selectedSpv != "" ==> Listed(s.spvs, s.selectedSpv))
    && (s.spvData.Some? ==>
          && IsFreshFiling(s.spvData.value)
          && Listed(MockSpvs, s.spvData.value.spvId)
          && s.spvData.value.entityName == EntityNameFor(MockSpvs, s.spvData.value.spvId))
  }

  lemma InitialValid(year: nat)
    ensures Valid(Initial(year))
  {
  }

  /** Every screen action keeps the invariant. */
  lemma ActionsKeepValid(s: State, ok: bool, k: nat, value: string, store: Filing, year: nat,
                         entityDraw: EntityTaxNumber, investorDraw: nat -> InvestorTaxNumber)
    requires Valid(s)
    ensures Valid(FetchSpvs(s, ok))
    ensures Valid(SelectSpv(s, k))
    ensures Valid(SetTaxYear(s, value))
    ensures Valid(FetchSpvDetails(s, store, ok, year, entityDraw, investorDraw).screen)
  {
    if s.selectedSpv != "" {
      var j :| 0 <= j < |s.spvs| && s.spvs[j].id == s.selectedSpv;
      assert MockSpvs[j].id == s.selectedSpv;
    }
    if !s.fetchingSpvs && k < |s.spvs| {
      assert s.spvs[k].id != "";
    }
  }

  /**
   * The step can be completed only once a filing was loaded, and a loaded
   * filing names its SPV: a listed id never gets the empty entity name.
   */
  lemma CompleteMeansLoaded(s: State)
    requires Valid(s)
    ensures HandleComplete(s) ==>
              && IsFreshFiling(s.spvData.value)
              && HasSpv(s.spvData.value)
              && s.spvData.value.entityName != ""
  {
    if s.spvData.Some? {
      var f := s.spvData.value;
      var j :| 0 <= j < |MockSpvs| && MockSpvs[j].id == f.spvId;
      assert f.spvId in {"spv-001", "spv-002", "spv-003"};
      EntityNameOfMockSpvs(f.spvId);
    }
  }
}

=== FILE: decimal.dfy ===
/**
 * Decimal rendering of natural numbers, as JavaScript template literals
 * (`${n}`) render a non-negative integer, together with the parser that
 * inverts it. The mock service builds identifiers such as `inv-100`,
 * `XX-1234567` and `EFILE-123456` this way.
 */
module Decimal {

  predicate IsDigit(c: char) {
    '0' <= c <= '9'
  }

  predicate IsDigits(s: string) {
    forall i :: 0 <= i < |s| ==> IsDigit(s[i])
  }

  function DigitValue(c: char): (d: nat)
    requires IsDigit(c)
    ensures d < 10
  {
    c as int - '0' as int
  }

  function DigitChar(d: nat): (c: char)
    requires d < 10
    ensures IsDigit(c) && DigitValue(c) == d
  {
    ('0' as int + d) as char
  }

  /** `${n}`: the shortest decimal numeral of `n` (no leading zero). */
  function NatToString(n: nat): (r: string)
    ensures |r| >= 1 && IsDigits(r)
    ensures |r| > 1 ==> r[0] != '0'
    decreases n
  {
    if n < 10 then [DigitChar(n)] else NatToString(n / 10) + [DigitChar(n % 10)]
  }

  /** The number a string of digits denotes. */
  function DigitsValue(s: string): nat
    requires IsDigits(s)
  {
    if |s| == 0 then 0 else DigitsValue(s[..|s| - 1]) * 10 + DigitValue(s[|s| - 1])
  }

  /** Parsing the rendering of `n` gives `n` back. */
  lemma {:induction false} RoundTrip(n: nat)
    ensures DigitsValue(NatToString(n)) == n
    decreases n
  {
    var s := NatToString(n);
    if n >= 10 {
      RoundTrip(n / 10);
      assert s[..|s| - 1] == NatToString(n / 10);
    }
  }

  /** Distinct numbers render as distinct strings. */
  lemma Injective(a: nat, b: nat)
    ensures NatToString(a) == NatToString(b) ==> a == b
  {
    RoundTrip(a);
    RoundTrip(b);
  }

  function Pow10(k: nat): (p: nat)
    ensures p >= 1
  {
    if k == 0 then 1 else 10 * Pow10(k - 1)
  }

  /** A number with `k` significant digits renders in exactly `k` characters. */
  lemma {:induction false} Length(n: nat, k: nat)
    requires 1 <= k && Pow10(k - 1) <= n < Pow10(k)
    ensures |NatToString(n)| == k
    decreases k
  {
    if n >= 10 {
      Length(n / 10, k - 1);
    }
  }
}

=== FILE: distribution_screen.dfy ===
/**
 * The File Distribution screen: a per-investor delivery table filled one
 * investor at a time, then `distributeTaxFiles`.
 */
module DistributionScreen {
  import opened Optional
  import opened TaxData
  import opened TaxApi
  import opened Progress

  /** A delivery-table entry: `pending`, `sending` or `sent`. */
  datatype Delivery = DeliveryPending | Sending | Sent

  datatype State = State(
    distributing: bool,
    distributed: bool,
    taxData: Option<Filing>,
    progress: int,
    distributionStatus: map<string, Delivery>)

  /** The ids of the investors. */
  function Ids(investors: seq<Investor>): set<string> {
    set i | 0 <= i < |investors| :: investors[i].id
  }

  /** The mount-time check: every form is `distributed`, `approved` or `submitted`. */
  predicate AllDistributed(forms: seq<TaxForm>) {
    forall i :: 0 <= i < |forms| ==>
      forms[i].status == Distributed || forms[i].status == Approved || forms[i].status == Submitted
  }

  /** The check is "every form at `distributed` or beyond", and holds of no forms at all. */
  lemma AllDistributedMeansAtLeast(forms: seq<TaxForm>)
    ensures AllDistributed(forms) <==> AllFormsAtLeast(forms, Distributed)
    ensures AllDistributed([])
  {
  }

  /** The mount-time entry of one investor. */
  function InitialDelivery(investor: Investor): Delivery {
    if investor.k1Status == Some(K1Distributed) || investor.k1Status == Some(K1Approved) then Sent
    else DeliveryPending
  }

  /** True when no investor after position `i` shares investor `i`'s id. */
  predicate LastWithId(investors: seq<Investor>, i: nat)
    requires i < |investors|
  {
    forall j :: i < j < |investors| ==> investors[j].id != investors[i].id
  }

  lemma IdsSnoc(investors: seq<Investor>, last: Investor)
    ensures Ids(investors + [last]) == Ids(investors) + {last.id}
  {
    var all := investors + [last];
    forall k | k in Ids(all)
      ensures k in Ids(investors) + {last.id}
    {
      var i :| 0 <= i < |all| && all[i].id == k;
      if i < |investors| {
        assert investors[i] == all[i];
      }
    }
    forall k | k in Ids(investors)
      ensures k in Ids(all)
    {
      var i :| 0 <= i < |investors| && investors[i].id == k;
      assert all[i] == investors[i];
    }
    assert all[|investors|] == last;
  }

  /**
   * `investors.forEach(investor => { status[investor.id] = ... })`: one entry
   * per id; `InitialStatusMapValues` says which investor's entry wins.
   */
  function InitialStatusMap(investors: seq<Investor>): (m: map<string, Delivery>)
    ensures m.Keys == Ids(investors)
    decreases |investors|
  {
    if |investors| == 0 then map[]
    else
      var init := investors[..|investors| - 1];
      var last := investors[|investors| - 1];
      assert investors == init + [last];
      IdsSnoc(init, last);
      InitialStatusMap(init)[last.id := InitialDelivery(last)]
  }

  /** When ids repeat, the last investor with the id decides its entry. */
  lemma {:induction false} InitialStatusMapValues(investors: seq<Investor>)
    ensures forall i :: 0 <= i < |investors| && LastWithId(investors, i) ==>
              InitialStatusMap(investors)[investors[i].id] == InitialDelivery(investors[i])
    decreases |investors|
  {
    if |investors| > 0 {
      var init := investors[..|investors| - 1];
      var last := investors[|investors| - 1];
      InitialStatusMapValues(init);
      var r := InitialStatusMap(investors);
      assert r == InitialStatusMap(init)[last.id := InitialDelivery(last)];
      forall i | 0 <= i < |investors| && LastWithId(investors, i)
        ensures r[investors[i].id] == InitialDelivery(investors[i])
      {
        if i < |init| {
          assert init[i] == investors[i];
          assert investors[i].id != last.id;
          assert LastWithId(init, i);
        }
      }
    }
  }

  /** With distinct ids: an investor's entry reads `sent` exactly when its `k1Status` is `distributed` or `approved`. */
  lemma InitialEntryMeaning(investors: seq<Investor>, i: nat)
    requires i < |investors|
    requires forall a, b :: 0 <= a < b < |investors| ==> investors[a].id != investors[b].id
    ensures InitialStatusMap(investors)[investors[i].id] == Sent <==>
              investors[i].k1Status in {Some(K1Distributed), Some(K1Approved)}
  {
    assert LastWithId(investors, i);
    InitialStatusMapValues(investors);
  }

  /** The screen as it mounts on the current filing. */
  function Mount(current: Filing): (s: State)
    ensures !s.distributing && s.progress == 0
    ensures HasSpv(current) ==>
              && s.taxData == Some(current)
              && s.distributed == AllDistributed(current.taxForms)
              && s.distributionStatus == InitialStatusMap(current.investors)
    ensures !HasSpv(current) ==> s.taxData == None && !s.distributed && s.distributionStatus == map[]
  {
    if HasSpv(current) then
      State(false, AllDistributed(current.taxForms), Some(current), 0,
            if |current.investors| > 0 then InitialStatusMap(current.investors) else map[])
    else State(false, false, None, 0, map[])
  }

  /** Sending to one investor: its entry goes to `sending`, then to `sent`; no other entry changes. */
  function SendTo(m: map<string, Delivery>, id: string): (r: map<string, Delivery>)
    ensures r.Keys == m.Keys + {id} && r[id] == Sent
    ensures forall k :: k in m && k != id ==> r[k] == m[k]
  {
    var sending := m[id := Sending];
    sending[id := Sent]
  }

  /** The table after the first `i` investors were sent to, starting from all `pending`. */
  function TableAfter(investors: seq<Investor>, i: nat): map<string, Delivery>
    requires i <= |investors|
  {
    map k | k in Ids(investors) :: if k in Ids(investors[..i]) then Sent else DeliveryPending
  }

  lemma SendAdvancesTable(investors: seq<Investor>, i: nat)
    requires i < |investors|
    ensures SendTo(TableAfter(investors, i), investors[i].id) == TableAfter(investors, i + 1)
  {
    assert investors[..i + 1] == investors[..i] + [investors[i]];
    IdsSnoc(investors[..i], investors[i]);
    assert investors[i].id in Ids(investors);
  }

  /**
   * `distributeFiles`, run to the end: reset every entry to `pending`, send to
   * the investors in order, then call `distributeTaxFiles`, whose rejection is
   * the `ok == false` outcome and leaves the current filing as it was. `trace` lists every value handed to
   * `setProgress`.
   */
  method DistributeFiles(s: State, store: Filing, ok: bool) returns (s': State, store': Filing, trace: seq<int>)
    ensures s.taxData.None? ==> s' == s && store' == store && trace == []
    ensures s.taxData.Some? ==>
              var investors := s.taxData.value.investors;
              && store' == (if ok then DistributeTaxFiles(s.taxData.value) else store)
              && !s'.distributing && s'.progress == 100
              && s'.distributed == (s.distributed || ok)
              && s'.taxData == (if ok then Some(store') else s.taxData)
              && s'.distributionStatus.Keys == Ids(investors)
              && (forall k :: k in s'.distributionStatus ==> s'.distributionStatus[k] == Sent)
              && |trace| == |investors| + 2 && trace[0] == 0 && trace[|investors| + 1] == 100
              && (forall k :: 1 <= k <= |investors| ==> trace[k] == Percent(k, |investors|))
              && NonDecreasing(trace)
  {
    if s.taxData.None? {
      return s, store, [];
    }
    var data := s.taxData.value;
    var investors := data.investors;
    var n := |investors|;
    var status := TableAfter(investors, 0);
    trace := [0];
    for i := 0 to n
      invariant status == TableAfter(investors, i)
      invariant trace == EvenTrace(n, i)
    {
      SendAdvancesTable(investors, i);
      status := SendTo(status, investors[i].id);
      trace := trace + [Percent(i + 1, n)];
    }
    assert investors[..n] == investors;
    if n > 0 {
      EvenTraceShape(n, n);
    }
    if ok {
      var distributedData := DistributeTaxFiles(data);
      store' := distributedData;
      s' := s.(taxData := Some(distributedData), distributed := true);
    } else {
      store' := store;
      s' := s;
    }
    s' := s'.(distributing := false, progress := 100, distributionStatus := status);
    trace := trace + [100];
  }

  /** `disabled={distributing || distributed}` on the start button, negated. */
  predicate StartEnabled(s: State) {
    !(s.distributing || s.distributed)
  }

  /** Whether `handleComplete` calls `onComplete`. */
  function HandleComplete(s: State): bool {
    s.distributed
  }

  /** `distributed` is only ever true with a filing whose forms are all `distributed` or beyond. */
  predicate Valid(s: State) {
    s.distributed ==> s.taxData.Some? && AllFormsAtLeast(s.taxData.value.taxForms, Distributed)
  }

  lemma MountValid(current: Filing)
    ensures Valid(Mount(current))
  {
    AllDistributedMeansAtLeast(current.taxForms);
  }

  /** A run keeps the invariant; after a failed one every entry reads `sent` yet the step cannot be completed. */
  method DistributeFilesValid(s: State, store: Filing, ok: bool) returns (s': State, store': Filing)
    requires Valid(s)
    ensures Valid(s')
    ensures s.taxData.Some? && ok ==> HandleComplete(s') && !StartEnabled(s')
    ensures s.taxData.Some? && !ok && !s.distributed ==>
              !HandleComplete(s') && forall k :: k in s'.distributionStatus ==> s'.distributionStatus[k] == Sent
  {
    var trace;
    s', store', trace := DistributeFiles(s, store, ok);
  }
}

=== FILE: efile_screen.dfy ===
/**
 * The E-File Submission screen: six simulated submission phases, then
 * `submitEFile` and its `{ success, confirmationId }` reply.
 */
module EFileScreen {
  import opened Optional
  import opened TaxData
  import opened TaxApi
  import opened Progress

  /** `stages`: the phase labels shown while submitting. */
  const Phases: seq<string> := [
    "Preparing submission package",
    "Validating tax information",
    "Encrypting sensitive data",
    "Connecting to IRS e-file system",
    "Submitting forms",
    "Receiving confirmation"
  ]

  datatype State = State(
    submitting: bool,
    submitted: bool,
    taxData: Option<Filing>,
    progress: int,
    confirmationId: string,
    submissionStage: string)

  /** How the awaited `submitEFile` call settles: rejected, or resolved with a reply record. */
  datatype Reply = Rejected | Resolved(result: EFileResult)

  /** The screen as it mounts: already submitted iff every form is `submitted`. */
  function Mount(current: Filing): (s: State)
    ensures !s.submitting && s.progress == 0 && s.confirmationId == "" && s.submissionStage == ""
    ensures HasSpv(current) ==> s.taxData == Some(current) && s.submitted == AllFormsAre(current.taxForms, Submitted)
    ensures !HasSpv(current) ==> s.taxData == None && !s.submitted
  {
    if HasSpv(current) then State(false, AllFormsAre(current.taxForms, Submitted), Some(current), 0, "", "")
    else State(false, false, None, 0, "", "")
  }

  /** The six phases report 16, 33, 50, 66, 83 and 100 percent. */
  lemma PhasePercents()
    ensures EvenTrace(6, 6) == [0, 16, 33, 50, 66, 83, 100]
  {
  }

  /**
   * `submitEFile`, run to the end. `progressTrace` lists every value handed to
   * `setProgress` and `stageTrace` every label handed to `setSubmissionStage`.
   * Any resolved reply comes after the service stored the submitted filing, a
   * rejected one leaves the current filing as it was. Only a resolved reply
   * with `success` records the confirmation and marks the screen submitted; `progress` is not reset in `finally`.
   */
  method SubmitEFile(s: State, store: Filing, reply: Reply)
    returns (s': State, store': Filing, progressTrace: seq<int>, stageTrace: seq<string>)
    ensures s.taxData.None? ==> s' == s && store' == store && progressTrace == [] && stageTrace == []
    ensures s.taxData.Some? ==>
              && store' == (if reply.Resolved? then SubmittedFiling(s.taxData.value) else store)
              && !s'.submitting && s'.taxData == s.taxData
              && stageTrace == Phases && s'.submissionStage == Phases[5]
              && progressTrace == EvenTrace(6, 6) && s'.progress == 100
              && (reply.Resolved? && reply.result.success ==>
                    s'.submitted && s'.confirmationId == reply.result.confirmationId)
              && (!(reply.Resolved? && reply.result.success) ==>
                    s'.submitted == s.submitted && s'.confirmationId == s.confirmationId)
  {
    if s.taxData.None? {
      return s, store, [], [];
    }
    var data := s.taxData.value;
    s' := s.(submitting := true, progress := 0);
    progressTrace := [0];
    stageTrace := [];
    for i := 0 to |Phases|
      invariant |stageTrace| == i && stageTrace == Phases[..i]
      invariant progressTrace == EvenTrace(6, i)
      invariant s'.progress == EvenTrace(6, i)[i]
      invariant i > 0 ==> s'.submissionStage == Phases[i - 1]
      invariant s' == s.(submitting := true, progress := s'.progress, submissionStage := s'.submissionStage)
    {
      var p := Percent(i + 1, |Phases|);
      s' := s'.(submissionStage := Phases[i], progress := p);
      stageTrace := stageTrace + [Phases[i]];
      progressTrace := progressTrace + [p];
    }
    PhasePercents();
    store' := if reply.Resolved? then SubmittedFiling(data) else store;
    if reply.Resolved? && reply.result.success {
      s' := s'.(confirmationId := reply.result.confirmationId, submitted := true);
    }
    s' := s'.(submitting := false);
  }

  /** `disabled={submitting || submitted}` on the start button, negated. */
  predicate StartEnabled(s: State) {
    !(s.submitting || s.submitted)
  }

  /** Whether `handleComplete` calls `onComplete`. */
  function HandleComplete(s: State): bool {
    s.submitted
  }

  /**
   * `submitted` is only ever true while the service's current filing has every
   * form `submitted`. The screen's own copy is not updated by a submission, so
   * the invariant is about the service's copy.
   */
  predicate Valid(s: State, store: Filing) {
    s.submitted ==> AllFormsAre(store.taxForms, Submitted)
  }

  lemma MountValid(current: Filing)
    ensures Valid(Mount(current), current)
  {
  }

  /** A run keeps the invariant; a failed or rejected reply changes nothing about submission. */
  method SubmitEFileValid(s: State, store: Filing, reply: Reply) returns (s': State, store': Filing)
    requires Valid(s, store)
    ensures Valid(s', store')
    ensures s.taxData.Some? && reply.Resolved? && reply.result.success ==> HandleComplete(s') && !StartEnabled(s')
    ensures !(reply.Resolved? && reply.result.success) ==> HandleComplete(s') == HandleComplete(s)
  {
    var progressTrace, stageTrace;
    s', store', progressTrace, stageTrace := SubmitEFile(s, store, reply);
  }
}

=== FILE: generation_screen.dfy ===
/** The File Generation screen: one call to `generateTaxFiles`. */
module GenerationScreen {
  import opened Optional
  import opened TaxData
  import opened TaxApi

  datatype State = State(generating: bool, generated: bool, taxData: Option<Filing>)

  /** The mount-time check: every form is `generated`, `distributed`, `approved` or `submitted`. */
  predicate AllGenerated(forms: seq<TaxForm>) {
    forall i :: 0 <= i < |forms| ==>
      forms[i].status == Generated || forms[i].status == Distributed
      || forms[i].status == Approved || forms[i].status == Submitted
  }

  /** The check means: no form is still `pending`, i.e. every form is at `generated` or beyond. */
  lemma AllGeneratedMeansAtLeast(forms: seq<TaxForm>)
    ensures AllGenerated(forms) <==> AllFormsAtLeast(forms, Generated)
    ensures AllGenerated(forms) <==> forall i :: 0 <= i < |forms| ==> forms[i].status != Pending
  {
  }

  /** The screen as it mounts on the current filing. */
  function Mount(current: Filing): (s: State)
    ensures !s.generating
    ensures HasSpv(current) ==> s.taxData == Some(current) && s.generated == AllGenerated(current.taxForms)
    ensures !HasSpv(current) ==> s.taxData == None && !s.generated
  {
    if HasSpv(current) then State(false, AllGenerated(current.taxForms), Some(current))
    else State(false, false, None)
  }

  /**
   * `generateFiles`, whose `generateTaxFiles` call resolves when `ok` and
   * rejects otherwise; a rejection leaves the current filing as it was.
   */
  function GenerateFiles(s: State, store: Filing, ok: bool): (r: Effect<State>)
    ensures s.taxData.None? ==> r == Effect(s, store)
    ensures s.taxData.Some? ==>
              && r.store == (if ok then GenerateTaxFiles(s.taxData.value) else store)
              && !r.screen.generating
              && r.screen.generated == (s.generated || ok)
              && r.screen.taxData == (if ok then Some(r.store) else s.taxData)
  {
    match s.taxData
    case None => Effect(s, store)
    case Some(data) =>
      var updated := GenerateTaxFiles(data);
      if ok then Effect(State(false, true, Some(updated)), updated)
      else Effect(s.(generating := false), store)
  }

  /** `disabled={generating || generated}` on the start button, negated. */
  predicate StartEnabled(s: State) {
    !(s.generating || s.generated)
  }

  /** Whether `handleComplete` calls `onComplete`. */
  function HandleComplete(s: State): bool {
    s.generated
  }

  /** `generated` is only ever true with a filing none of whose forms is pending. */
  predicate Valid(s: State) {
    s.generated ==> s.taxData.Some? && AllFormsAtLeast(s.taxData.value.taxForms, Generated)
  }

  lemma MountValid(current: Filing)
    ensures Valid(Mount(current))
  {
    AllGeneratedMeansAtLeast(current.taxForms);
  }

  /** Generation keeps the invariant; success enables completion and disables a second run. */
  lemma GenerateFilesValid(s: State, store: Filing, ok: bool)
    requires Valid(s)
    ensures Valid(GenerateFiles(s, store, ok).screen)
    ensures s.taxData.Some? && ok ==>
              HandleComplete(GenerateFiles(s, store, ok).screen) && !StartEnabled(GenerateFiles(s, store, ok).screen)
    ensures !ok ==> HandleComplete(GenerateFiles(s, store, ok).screen) == HandleComplete(s)
  {
  }

  /**
   * The start button guards against the regression `generateTaxFiles` would
   * cause: on a filing whose forms are all past `pending`, the screen mounts
   * with the button disabled.
   */
  lemma MountDisablesRegeneration(current: Filing)
    requires HasSpv(current) && AllFormsAtLeast(current.taxForms, Generated)
    ensures !StartEnabled(Mount(current))
  {
    AllGeneratedMeansAtLeast(current.taxForms);
  }
}

=== FILE: optional.dfy ===
/** TypeScript's optional values (`T | undefined`, `T | null`) and optional fields. */
module Optional {

  datatype Option<T> = None | Some(value: T)

  /** What a spread `{ ...prev, ...patch }` keeps for one field: the patch's entry if present, else `fallback`. */
  function ValueOr<T>(o: Option<T>, fallback: T): T {
    match o
    case None => fallback
    case Some(v) => v
  }
}

=== FILE: processing_screen.dfy ===
/**
 * The Data Processing screen: five simulated steps with a weighted progress
 * bar, then `processTaxData`.
 */
module ProcessingScreen {
  import opened Optional
  import opened TaxData
  import opened TaxApi
  import opened Progress

  /** A step's `status`: `pending`, `processing` or `completed`. */
  datatype StepStatus = StepPending | StepProcessing | StepCompleted

  datatype ProcessingStep = ProcessingStep(id: int, name: string, status: StepStatus, time: nat)

  /** `processingSteps`. */
  const ProcessingSteps: seq<ProcessingStep> := [
    ProcessingStep(1, "Validate Entity Information", StepPending, 2),
    ProcessingStep(2, "Process Investor Data", StepPending, 3),
    ProcessingStep(3, "Calculate Distributions", StepPending, 2),
    ProcessingStep(4, "Prepare Tax Allocations", StepPending, 4),
    ProcessingStep(5, "Apply Tax Rules & Regulations", StepPending, 3)
  ]

  /** `steps.reduce((acc, step) => acc + step.time, 0)`. */
  function TotalTime(steps: seq<ProcessingStep>): nat {
    if |steps| == 0 then 0 else TotalTime(steps[..|steps| - 1]) + steps[|steps| - 1].time
  }

  /** The time of the first `k` steps. */
  function Cumulative(k: nat): nat
    requires k <= |ProcessingSteps|
  {
    TotalTime(ProcessingSteps[..k])
  }

  /** The running totals of the weights 2, 3, 2, 4, 3. */
  lemma CumulativeValues()
    ensures Cumulative(0) == 0 && Cumulative(1) == 2 && Cumulative(2) == 5
    ensures Cumulative(3) == 7 && Cumulative(4) == 11 && Cumulative(5) == 14
    ensures TotalTime(ProcessingSteps) == 14
  {
    var p := ProcessingSteps;
    assert p[..1][..0] == p[..0];
    assert p[..2][..1] == p[..1];
    assert p[..3][..2] == p[..2];
    assert p[..4][..3] == p[..3];
    assert p[..5][..4] == p[..4];
    assert p[..5] == p;
  }

  /** The bar reads 14, 35, 50, 78, 100 after the five steps. */
  lemma StepPercents()
    ensures Percent(Cumulative(1), 14) == 14 && Percent(Cumulative(2), 14) == 35
    ensures Percent(Cumulative(3), 14) == 50 && Percent(Cumulative(4), 14) == 78
    ensures Percent(Cumulative(5), 14) == 100
  {
    CumulativeValues();
  }

  datatype State = State(
    processing: bool,
    processed: bool,
    progress: int,
    taxData: Option<Filing>,
    steps: seq<ProcessingStep>)

  /** The screen as it mounts: it holds the current filing when that has an SPV id. */
  function Mount(current: Filing): (s: State)
    ensures s.taxData == (if HasSpv(current) then Some(current) else None)
    ensures !s.processing && !s.processed && s.progress == 0 && s.steps == ProcessingSteps
  {
    State(false, false, 0, if HasSpv(current) then Some(current) else None, ProcessingSteps)
  }

  /** `current.map(s => s.id === id ? { ...s, status } : s)`. */
  function MarkStep(steps: seq<ProcessingStep>, id: int, status: StepStatus): (r: seq<ProcessingStep>)
    ensures |r| == |steps|
    ensures forall j :: 0 <= j < |steps| && steps[j].id == id ==> r[j] == steps[j].(status := status)
    ensures forall j :: 0 <= j < |steps| && steps[j].id != id ==> r[j] == steps[j]
  {
    seq(|steps|, j requires 0 <= j < |steps| => if steps[j].id == id then steps[j].(status := status) else steps[j])
  }

  /** With distinct ids, marking a step changes that one entry and no other. */
  lemma MarkStepTouchesOne(steps: seq<ProcessingStep>, k: nat, status: StepStatus)
    requires k < |steps|
    requires forall i, j :: 0 <= i < j < |steps| ==> steps[i].id != steps[j].id
    ensures MarkStep(steps, steps[k].id, status) == steps[k := steps[k].(status := status)]
  {
    var r := MarkStep(steps, steps[k].id, status);
    forall j | 0 <= j < |steps|
      ensures r[j] == steps[k := steps[k].(status := status)][j]
    {
      if j != k {
        assert steps[j].id != steps[k].id by {
          if j < k { } else { }
        }
      }
    }
  }

  /** The `i`-th row as it stands after the first `done` steps ran. */
  function RowAfter(i: nat, done: nat): ProcessingStep
    requires i < |ProcessingSteps|
  {
    ProcessingSteps[i].(status := if i < done then StepCompleted else StepPending)
  }

  /** One loop iteration on the step table: step `i` goes to `processing`, then to `completed`. */
  function RunStep(steps: seq<ProcessingStep>, i: nat): (r: seq<ProcessingStep>)
    requires i < |ProcessingSteps| && |steps| == |ProcessingSteps|
    requires forall j :: 0 <= j < |ProcessingSteps| ==> steps[j] == RowAfter(j, i)
    ensures |r| == |ProcessingSteps|
    ensures forall j :: 0 <= j < |ProcessingSteps| ==> r[j] == RowAfter(j, i + 1)
  {
    var id := ProcessingSteps[i].id;
    var running := MarkStep(steps, id, StepProcessing);
    assert forall j :: 0 <= j < |ProcessingSteps| ==> ProcessingSteps[j].id == j + 1;
    forall j | 0 <= j < |steps|
      ensures steps[j].id == j + 1
    {
      assert steps[j] == RowAfter(j, i);
    }
    var r := MarkStep(running, id, StepCompleted);
    forall j | 0 <= j < |ProcessingSteps|
      ensures r[j] == RowAfter(j, i + 1)
    {
      assert running[j].id == steps[j].id == j + 1;
      if j == i {
        assert r[j] == running[j].(status := StepCompleted);
        assert running[j] == steps[j].(status := StepProcessing);
        assert steps[j] == RowAfter(j, i);
        assert r[j] == ProcessingSteps[j].(status := StepCompleted);
      } else {
        assert r[j] == running[j] == steps[j];
        assert steps[j] == RowAfter(j, i);
        assert RowAfter(j, i) == RowAfter(j, i + 1);
      }
    }
    r
  }

  /**
   * `startProcessing`, run to the end: the five steps in order, then
   * `processTaxData`, whose rejection is the `ok == false` outcome and leaves
   * the current filing as it was.
   * `trace` lists every value handed to `setProgress`.
   */
  method StartProcessing(s: State, store: Filing, ok: bool) returns (s': State, store': Filing, trace: seq<int>)
    ensures s.taxData.None? ==> s' == s && store' == store && trace == []
    ensures s.taxData.Some? ==>
              && store' == (if ok then ProcessTaxData(s.taxData.value) else store)
              && !s'.processing && s'.progress == 100
              && s'.processed == (s.processed || ok)
              && s'.taxData == (if ok then Some(store') else s.taxData)
              && |s'.steps| == |ProcessingSteps|
              && (forall i :: 0 <= i < |ProcessingSteps| ==> s'.steps[i] == RowAfter(i, 5))
              && |trace| == 7 && trace[0] == 0 && trace[6] == 100
              && (forall k :: 1 <= k <= 5 ==> trace[k] == Percent(Cumulative(k), TotalTime(ProcessingSteps)))
  {
    if s.taxData.None? {
      return s, store, [];
    }
    var data := s.taxData.value;
    var total := TotalTime(ProcessingSteps);
    CumulativeValues();
    var steps := seq(|ProcessingSteps|, i requires 0 <= i < |ProcessingSteps| => ProcessingSteps[i].(status := StepPending));
    var cumulative := 0;
    trace := [0];
    for i := 0 to |ProcessingSteps|
      invariant |steps| == |ProcessingSteps|
      invariant forall j :: 0 <= j < |ProcessingSteps| ==> steps[j] == RowAfter(j, i)
      invariant cumulative == Cumulative(i)
      invariant |trace| == i + 1 && trace[0] == 0
      invariant forall k :: 1 <= k <= i ==> trace[k] == Percent(Cumulative(k), total)
    {
      steps := RunStep(steps, i);
      assert ProcessingSteps[..i + 1][..i] == ProcessingSteps[..i];
      cumulative := cumulative + ProcessingSteps[i].time;
      trace := trace + [Percent(cumulative, total)];
    }
    if ok {
      var processedData := ProcessTaxData(data);
      store' := processedData;
      s' := s.(taxData := Some(processedData), processed := true);
    } else {
      store' := store;
      s' := s;
    }
    s' := s'.(processing := false, progress := 100, steps := steps);
    trace := trace + [100];
  }

  /** The progress values one run shows, in order: 0, 14, 35, 50, 78, 100, then 100 again. */
  lemma RunTraceValues(trace: seq<int>)
    requires |trace| == 7 && trace[0] == 0 && trace[6] == 100
    requires forall k :: 1 <= k <= 5 ==> trace[k] == Percent(Cumulative(k), TotalTime(ProcessingSteps))
    ensures trace == [0, 14, 35, 50, 78, 100, 100]
    ensures NonDecreasing(trace)
    ensures forall k :: 0 <= k < 5 ==> trace[k] < 100
  {
    CumulativeValues();
    StepPercents();
    assert trace[1] == 14 && trace[2] == 35 && trace[3] == 50 && trace[4] == 78 && trace[5] == 100;
  }

  /** `disabled={processing || processed}` on the start button, negated. */
  predicate StartEnabled(s: State) {
    !(s.processing || s.processed)
  }

  /** Whether `handleComplete` calls `onComplete`. */
  function HandleComplete(s: State): bool {
    s.processed
  }

  /** `processed` is only ever true with a filing whose forms and investors are all `generated`. */
  predicate Valid(s: State) {
    s.processed ==>
      && s.taxData.Some?
      && AllFormsAre(s.taxData.value.taxForms, Generated)
      && AllInvestorsAre(s.taxData.value.investors, K1Generated)
  }

  lemma MountValid(current: Filing)
    ensures Valid(Mount(current))
    ensures HandleComplete(Mount(current)) == false
  {
  }

  /** A run keeps the invariant; after a successful run the step cannot be started again and can be completed. */
  method StartProcessingValid(s: State, store: Filing, ok: bool) returns (s': State, store': Filing)
    requires Valid(s)
    ensures Valid(s')
    ensures s.taxData.Some? && ok ==> HandleComplete(s') && !StartEnabled(s')
    ensures !ok ==> HandleComplete(s') == HandleComplete(s)
  {
    var trace;
    s', store', trace := StartProcessing(s, store, ok);
  }
}

=== FILE: progress.dfy ===
/**
 * Integer progress percentages: `Math.floor(done / total * 100)` computed as
 * `floor(done * 100 / total)`.
 */
module Progress {

  function Percent(done: nat, total: nat): (r: nat)
    requires 0 < total
    ensures done <= total ==> r <= 100
    ensures done == total ==> r == 100
    ensures done < total ==> r < 100
  {
    PercentBounds(done, total);
    done * 100 / total
  }

  lemma PercentBounds(done: nat, total: nat)
    requires 0 < total
    ensures done <= total ==> done * 100 / total <= 100
    ensures done == total ==> done * 100 / total == 100
    ensures done < total ==> done * 100 / total < 100
  {
    var x, d := done * 100, total;
    var q := x / d;
    assert x == q * d + x % d && 0 <= x % d < d;
  }

  lemma MulLeft(a: nat, b: nat, d: nat)
    requires a <= b
    ensures a * d <= b * d
  {
  }

  /** More work done never shows a smaller percentage. */
  lemma PercentMonotone(a: nat, b: nat, total: nat)
    requires 0 < total && a <= b
    ensures Percent(a, total) <= Percent(b, total)
  {
    var x, y := a * 100, b * 100;
    var qx, qy := x / total, y / total;
    assert x == qx * total + x % total && y == qy * total + y % total;
    if qx > qy {
      assert qx * total >= (qy + 1) * total by { MulLeft(qy + 1, qx, total); }
      assert false;
    }
  }

  predicate NonDecreasing(s: seq<int>) {
    forall i, j :: 0 <= i <= j < |s| ==> s[i] <= s[j]
  }

  /**
   * The progress values a loop over `n` equal items reports: 0 at the
   * start, then `floor(k * 100 / n)` after item `k`, for the first `i` items.
   */
  function EvenTrace(n: nat, i: nat): (r: seq<int>)
    requires i <= n
    ensures |r| == i + 1 && r[0] == 0
  {
    if i == 0 then [0] else EvenTrace(n, i - 1) + [Percent(i, n)]
  }

  /** Entry `k` is the percentage after `k` items; the values never decrease and stay within 100. */
  lemma {:induction false} EvenTraceShape(n: nat, i: nat)
    requires 0 < n && i <= n
    ensures forall k :: 1 <= k <= i ==> EvenTrace(n, i)[k] == Percent(k, n)
    ensures NonDecreasing(EvenTrace(n, i))
    ensures forall k :: 0 <= k <= i ==> EvenTrace(n, i)[k] <= Percent(i, n) <= 100
    decreases i
  {
    if i > 0 {
      EvenTraceShape(n, i - 1);
      var prev := EvenTrace(n, i - 1);
      assert EvenTrace(n, i) == prev + [Percent(i, n)];
      if i > 1 {
        PercentMonotone(i - 1, i, n);
      }
    }
  }
}

=== FILE: tax_api.dfy ===
/**
 * The mock tax service (`taxApi`). Every operation is a pure transformation of
 * a filing. The service also keeps a module-level "current filing" that each
 * operation overwrites with its result as soon as it is invoked, before its
 * promise settles; a call that rejects does so before that write, so a
 * rejection leaves the current filing as it was. Here that value is an
 * explicit `Filing` (`store`) that callers thread along, and
 * `GetCurrentTaxData` reads it back.
 */
module TaxApi {
  import opened Optional
  import opened Decimal
  import opened TaxData

  datatype SpvSummary = SpvSummary(id: string, name: string)

  /** `mockSPVs`, the list `fetchSPVs` resolves with. */
  const MockSpvs: seq<SpvSummary> := [
    SpvSummary("spv-001", "Tech Ventures Fund I"),
    SpvSummary("spv-002", "Healthcare Innovations SPV"),
    SpvSummary("spv-003", "Real Estate Opportunity Fund")
  ]

  /** The random part of the entity tax id: `Math.floor(1000000 + Math.random() * 9000000)`. */
  type EntityTaxNumber = n: int | 1000000 <= n <= 9999999 witness 1000000

  /** The random part of an investor tax id: `Math.floor(1000 + Math.random() * 9000)`. */
  type InvestorTaxNumber = n: int | 1000 <= n <= 9999 witness 1000

  /** The random part of an e-file confirmation: `Math.floor(100000 + Math.random() * 900000)`. */
  type ConfirmationNumber = n: int | 100000 <= n <= 999999 witness 100000

  /** What a screen handler leaves behind: its new state and the service's current filing. */
  datatype Effect<S> = Effect(screen: S, store: Filing)

  /** `currentTaxData` before anything is fetched. */
  const InitialStore: Filing := EmptyFiling

  /** `getCurrentTaxData()`. */
  function GetCurrentTaxData(store: Filing): Filing {
    store
  }

  /**
   * `fetchSPVs()`: three SPVs with distinct ids, each named, and each id
   * looked up by `fetchSPVDetails` to the name listed beside it.
   */
  function FetchSPVs(): (r: seq<SpvSummary>)
    ensures |r| == 3
    ensures forall i, j :: 0 <= i < j < |r| ==> r[i].id != r[j].id
    ensures forall i :: 0 <= i < |r| ==> r[i].name != "" && EntityNameFor(MockSpvs, r[i].id) == r[i].name
  {
    MockSpvs
  }

  /** `mockSPVs.find(spv => spv.id === spvId)?.name || ''`. */
  function EntityNameFor(spvs: seq<SpvSummary>, spvId: string): (r: string)
    ensures (forall j :: 0 <= j < |spvs| ==> spvs[j].id != spvId) ==> r == ""
    ensures forall j :: 0 <= j < |spvs| && spvs[j].id == spvId && (forall k :: 0 <= k < j ==> spvs[k].id != spvId) ==>
              r == spvs[j].name
  {
    if |spvs| == 0 then ""
    else if spvs[0].id == spvId then spvs[0].name
    else EntityNameFor(spvs[1..], spvId)
  }

  /** The `i`-th investor (0-based) that `fetchSPVDetails` creates. */
  function NewInvestor(i: nat, taxNumber: InvestorTaxNumber): Investor {
    Investor(
      "inv-" + NatToString(i + 100),
      "Investor " + NatToString(i + 1),
      "XXX-XX-" + NatToString(taxNumber),
      "investor" + NatToString(i + 1) + "@example.com",
      Some(K1Pending))
  }

  /** The two forms a freshly fetched filing carries. */
  const FreshForms: seq<TaxForm> := [
    TaxForm("form-1", "1065", Pending, None),
    TaxForm("form-2", "K-1", Pending, None)
  ]

  /** The shape `fetchSPVDetails` always returns: five pending investors, the two pending forms. */
  predicate IsFreshFiling(f: Filing) {
    && |f.investors| == 5
    && AllInvestorsAre(f.investors, K1Pending)
    && (forall i, j :: 0 <= i < j < |f.investors| ==> f.investors[i].id != f.investors[j].id)
    && |f.taxForms| == 2
    && f.taxForms[0].formType == "1065" && f.taxForms[1].formType == "K-1"
    && AllFormsAre(f.taxForms, Pending)
    && (forall i :: 0 <= i < |f.taxForms| ==> f.taxForms[i].downloadUrl == None)
  }

  /**
   * `fetchSPVDetails(spvId)`. The current year and the random tax-id digits
   * are parameters: `year` is the clock's year, `investorDraw(i)` the number
   * drawn for the `i`-th investor.
   */
  function FetchSPVDetails(spvId: string, year: nat, entityDraw: EntityTaxNumber,
                           investorDraw: nat -> InvestorTaxNumber): (r: Filing)
    ensures r.spvId == spvId && r.taxYear == NatToString(year)
    ensures r.entityName == EntityNameFor(MockSpvs, spvId)
    ensures r.entityTaxId == "XX-" + NatToString(entityDraw)
    ensures IsFreshFiling(r)
  {
    var investors := seq(5, i requires 0 <= i < 5 => NewInvestor(i, investorDraw(i)));
    InvestorIdsDistinct(investors, investorDraw);
    Filing(spvId, NatToString(year), EntityNameFor(MockSpvs, spvId),
           "XX-" + NatToString(entityDraw), investors, FreshForms)
  }

  lemma InvestorIdsDistinct(investors: seq<Investor>, investorDraw: nat -> InvestorTaxNumber)
    requires |investors| == 5
    requires forall i :: 0 <= i < 5 ==> investors[i] == NewInvestor(i, investorDraw(i))
    ensures forall i, j :: 0 <= i < j < 5 ==> investors[i].id != investors[j].id
  {
    forall i, j | 0 <= i < j < 5
      ensures investors[i].id != investors[j].id
    {
      var a, b := NatToString(i + 100), NatToString(j + 100);
      if investors[i].id == investors[j].id {
        assert a == investors[i].id[4..] && b == investors[j].id[4..];
        Injective(i + 100, j + 100);
      }
    }
  }

  /** A listed SPV gets its listed name; an unknown id gets the empty name. */
  lemma EntityNameOfMockSpvs(spvId: string)
    ensures spvId == "spv-001" ==> EntityNameFor(MockSpvs, spvId) == "Tech Ventures Fund I"
    ensures spvId == "spv-002" ==> EntityNameFor(MockSpvs, spvId) == "Healthcare Innovations SPV"
    ensures spvId == "spv-003" ==> EntityNameFor(MockSpvs, spvId) == "Real Estate Opportunity Fund"
    ensures spvId !in {"spv-001", "spv-002", "spv-003"} ==> EntityNameFor(MockSpvs, spvId) == ""
  {
  }

  /** `processTaxData`: every form and every investor becomes `generated`. */
  function ProcessTaxData(data: Filing): (r: Filing)
    ensures SameHeader(r, data)
    ensures FormsAgreeBesidesStatus(data.taxForms, r.taxForms) && AllFormsAre(r.taxForms, Generated)
    ensures InvestorsAgreeBesidesStatus(data.investors, r.investors) && AllInvestorsAre(r.investors, K1Generated)
  {
    data.(taxForms := WithFormStatus(data.taxForms, Generated),
          investors := WithK1Status(data.investors, K1Generated))
  }

  /** `https://example.com/tax/${spvId}/${formType}.pdf`. */
  function DownloadUrl(spvId: string, formType: string): string {
    "https://example.com/tax/" + spvId + "/" + formType + ".pdf"
  }

  /** `generateTaxFiles`: every form becomes `generated` with its download URL; investors are untouched. */
  function GenerateTaxFiles(data: Filing): (r: Filing)
    ensures SameHeader(r, data) && r.investors == data.investors
    ensures |r.taxForms| == |data.taxForms| && AllFormsAre(r.taxForms, Generated)
    ensures forall i :: 0 <= i < |r.taxForms| ==>
              && r.taxForms[i].id == data.taxForms[i].id
              && r.taxForms[i].formType == data.taxForms[i].formType
              && r.taxForms[i].downloadUrl == Some(DownloadUrl(data.spvId, data.taxForms[i].formType))
  {
    data.(taxForms := seq(|data.taxForms|, i requires 0 <= i < |data.taxForms| =>
                            data.taxForms[i].(status := Generated,
                                              downloadUrl := Some(DownloadUrl(data.spvId, data.taxForms[i].formType)))))
  }

  /** `distributeTaxFiles`: every form and every investor becomes `distributed`. */
  function DistributeTaxFiles(data: Filing): (r: Filing)
    ensures SameHeader(r, data)
    ensures FormsAgreeBesidesStatus(data.taxForms, r.taxForms) && AllFormsAre(r.taxForms, Distributed)
    ensures InvestorsAgreeBesidesStatus(data.investors, r.investors) && AllInvestorsAre(r.investors, K1Distributed)
  {
    data.(taxForms := WithFormStatus(data.taxForms, Distributed),
          investors := WithK1Status(data.investors, K1Distributed))
  }

  /** `approveTaxFiling`: every form and every investor becomes `approved`. */
  function ApproveTaxFiling(data: Filing): (r: Filing)
    ensures SameHeader(r, data)
    ensures FormsAgreeBesidesStatus(data.taxForms, r.taxForms) && AllFormsAre(r.taxForms, Approved)
    ensures InvestorsAgreeBesidesStatus(data.investors, r.investors) && AllInvestorsAre(r.investors, K1Approved)
  {
    data.(taxForms := WithFormStatus(data.taxForms, Approved),
          investors := WithK1Status(data.investors, K1Approved))
  }

  /** The filing `submitEFile` stores: every form `submitted`, investors untouched. */
  function SubmittedFiling(data: Filing): (r: Filing)
    ensures SameHeader(r, data) && r.investors == data.investors
    ensures FormsAgreeBesidesStatus(data.taxForms, r.taxForms) && AllFormsAre(r.taxForms, Submitted)
  {
    data.(taxForms := WithFormStatus(data.taxForms, Submitted))
  }

  /** The `{ success, confirmationId }` record `submitEFile` resolves with. */
  datatype EFileResult = EFileResult(success: bool, confirmationId: string)

  /** An e-file confirmation: `EFILE-` and six digits, the first not zero. */
  predicate IsConfirmationId(s: string) {
    && |s| == 12 && s[..6] == "EFILE-"
    && IsDigits(s[6..]) && s[6] != '0'
  }

  /** What the mock `submitEFile` resolves with, given the number it draws. */
  function SubmitResponse(draw: ConfirmationNumber): (r: EFileResult)
    ensures r.success && IsConfirmationId(r.confirmationId)
    ensures DigitsValue(r.confirmationId[6..]) == draw
  {
    var digits := NatToString(draw);
    assert Pow10(2) == 100 && Pow10(4) == 10000 && Pow10(6) == 1000000;
    Length(draw, 6);
    RoundTrip(draw);
    assert ("EFILE-" + digits)[6..] == digits;
    EFileResult(true, "EFILE-" + digits)
  }

  /** The filings after each call of the full run, starting from a fetched one. */
  function Stages(fetched: Filing): (r: seq<Filing>)
    ensures |r| == 6 && r[0] == fetched
  {
    var processed := ProcessTaxData(fetched);
    var generated := GenerateTaxFiles(processed);
    var distributed := DistributeTaxFiles(generated);
    var approved := ApproveTaxFiling(distributed);
    [fetched, processed, generated, distributed, approved, SubmittedFiling(approved)]
  }

  /**
   * Fetch, process, generate, distribute, approve and submit, in that order,
   * never move a form back and end with every form submitted and every
   * investor approved.
   */
  lemma FullRunAdvances(spvId: string, year: nat, entityDraw: EntityTaxNumber,
                        investorDraw: nat -> InvestorTaxNumber)
    ensures var r := Stages(FetchSPVDetails(spvId, year, entityDraw, investorDraw));
            && (forall k :: 0 <= k < 5 ==> NoFormRegressed(r[k], r[k + 1]))
            && AllFormsAre(r[5].taxForms, Submitted)
            && AllInvestorsAre(r[5].investors, K1Approved)
            && |r[5].taxForms| == 2 && |r[5].investors| == 5
  {
  }

  /** `generateTaxFiles` has no guard: it moves a form that is already past `generated` back. */
  lemma GenerateCanRegress()
    ensures exists f :: !NoFormRegressed(f, GenerateTaxFiles(f))
  {
    var f := Filing("spv-001", "", "", "", [], [TaxForm("form-1", "1065", Submitted, None)]);
    assert GenerateTaxFiles(f).taxForms[0].status == Generated;
  }
}

=== FILE: tax_data.dfy ===
/**
 * The filing record the whole workflow passes around (`TaxDataType` with its
 * `InvestorData` and `TaxFormType` children), the two status enumerations and
 * the position of each status in the order the stages advance it.
 */
module TaxData {
  import opened Optional

  /** `TaxFormType.status`. */
  datatype FormStatus = Pending | Generated | Distributed | Approved | Submitted

  /** `InvestorData.k1Status`: the form statuses without `submitted`. */
  datatype K1Status = K1Pending | K1Generated | K1Distributed | K1Approved

  /** Position in `pending < generated < distributed < approved < submitted`. */
  function FormRank(s: FormStatus): nat {
    match s
    case Pending => 0
    case Generated => 1
    case Distributed => 2
    case Approved => 3
    case Submitted => 4
  }

  /** The form status an investor status mirrors. */
  function K1AsForm(k: K1Status): FormStatus {
    match k
    case K1Pending => Pending
    case K1Generated => Generated
    case K1Distributed => Distributed
    case K1Approved => Approved
  }

  /** The rank identifies the status, and investor statuses sit below `submitted`. */
  lemma RanksAreFaithful(a: FormStatus, b: FormStatus, k: K1Status)
    ensures FormRank(a) == FormRank(b) <==> a == b
    ensures FormRank(a) <= 4
    ensures FormRank(K1AsForm(k)) < FormRank(Submitted)
  {
  }

  datatype Investor = Investor(
    id: string,
    name: string,
    taxId: string,
    email: string,
    k1Status: Option<K1Status>)

  datatype TaxForm = TaxForm(
    id: string,
    formType: string,
    status: FormStatus,
    downloadUrl: Option<string>)

  datatype Filing = Filing(
    spvId: string,
    taxYear: string,
    entityName: string,
    entityTaxId: string,
    investors: seq<Investor>,
    taxForms: seq<TaxForm>)

  /** The value `currentTaxData` holds before any SPV is fetched. */
  const EmptyFiling := Filing("", "", "", "", [], [])

  /** `if (currentData.spvId)`: a screen treats a filing as present iff its SPV id is non-empty. */
  predicate HasSpv(f: Filing) {
    f.spvId != ""
  }

  predicate SameHeader(a: Filing, b: Filing) {
    && a.spvId == b.spvId
    && a.taxYear == b.taxYear
    && a.entityName == b.entityName
    && a.entityTaxId == b.entityTaxId
  }

  /** Every form has status `s`. */
  predicate AllFormsAre(forms: seq<TaxForm>, s: FormStatus) {
    forall i :: 0 <= i < |forms| ==> forms[i].status == s
  }

  /** Every form is at `s` or beyond it; vacuously true of no forms. */
  predicate AllFormsAtLeast(forms: seq<TaxForm>, s: FormStatus) {
    forall i :: 0 <= i < |forms| ==> FormRank(s) <= FormRank(forms[i].status)
  }

  /** Every investor's `k1Status` is set to `k`. */
  predicate AllInvestorsAre(investors: seq<Investor>, k: K1Status) {
    forall i :: 0 <= i < |investors| ==> investors[i].k1Status == Some(k)
  }

  /** Same forms in the same order; only the status may differ. */
  predicate FormsAgreeBesidesStatus(a: seq<TaxForm>, b: seq<TaxForm>) {
    && |a| == |b|
    && forall i :: 0 <= i < |a| ==>
         a[i].id == b[i].id && a[i].formType == b[i].formType && a[i].downloadUrl == b[i].downloadUrl
  }

  /** Same investors in the same order; only `k1Status` may differ. */
  predicate InvestorsAgreeBesidesStatus(a: seq<Investor>, b: seq<Investor>) {
    && |a| == |b|
    && forall i :: 0 <= i < |a| ==>
         && a[i].id == b[i].id && a[i].name == b[i].name
         && a[i].taxId == b[i].taxId && a[i].email == b[i].email
  }

  /** No form moved back in the status order between `a` and `b`. */
  predicate NoFormRegressed(a: Filing, b: Filing) {
    && |a.taxForms| == |b.taxForms|
    && forall i :: 0 <= i < |a.taxForms| ==>
         FormRank(a.taxForms[i].status) <= FormRank(b.taxForms[i].status)
  }

  /** `forms.map(form => ({ ...form, status: s }))`. */
  function WithFormStatus(forms: seq<TaxForm>, s: FormStatus): (r: seq<TaxForm>)
    ensures FormsAgreeBesidesStatus(forms, r)
    ensures AllFormsAre(r, s)
  {
    seq(|forms|, i requires 0 <= i < |forms| => forms[i].(status := s))
  }

  /** `investors.map(investor => ({ ...investor, k1Status: k }))`. */
  function WithK1Status(investors: seq<Investor>, k: K1Status): (r: seq<Investor>)
    ensures InvestorsAgreeBesidesStatus(investors, r)
    ensures AllInvestorsAre(r, k)
  {
    seq(|investors|, i requires 0 <= i < |investors| => investors[i].(k1Status := Some(k)))
  }

  /** The form list a status map produces is the only one agreeing with the input besides a uniform status. */
  lemma {:induction false} FormsDetermined(forms: seq<TaxForm>, s: FormStatus, r: seq<TaxForm>)
    requires FormsAgreeBesidesStatus(forms, r) && AllFormsAre(r, s)
    ensures r == WithFormStatus(forms, s)
  {
    var w := WithFormStatus(forms, s);
    assert forall i :: 0 <= i < |r| ==> r[i] == w[i] by {
      forall i | 0 <= i < |r|
        ensures r[i] == w[i]
      {
        assert r[i] == TaxForm(forms[i].id, forms[i].formType, s, forms[i].downloadUrl);
      }
    }
  }

  /** Likewise for the investor list. */
  lemma {:induction false} InvestorsDetermined(investors: seq<Investor>, k: K1Status, r: seq<Investor>)
    requires InvestorsAgreeBesidesStatus(investors, r) && AllInvestorsAre(r, k)
    ensures r == WithK1Status(investors, k)
  {
    var w := WithK1Status(investors, k);
    assert forall i :: 0 <= i < |r| ==> r[i] == w[i] by {
      forall i | 0 <= i < |r|
        ensures r[i] == w[i]
      {
        var v := investors[i];
        assert r[i] == Investor(v.id, v.name, v.taxId, v.email, Some(k));
      }
    }
  }

  /** Forms all at exactly `s` are at least at `s`, and "at least" weakens along the order. */
  lemma AtLeastFacts(forms: seq<TaxForm>, s: FormStatus, t: FormStatus)
    ensures AllFormsAre(forms, s) ==> AllFormsAtLeast(forms, s)
    ensures AllFormsAtLeast(forms, s) && FormRank(t) <= FormRank(s) ==> AllFormsAtLeast(forms, t)
  {
  }

  /** `formatFormType`, which the File Generation and Approval screens both define the same way. */
  function FormatFormType(formType: string): (shown: string)
    ensures formType == "1065" ==> shown == "Form 1065 (Partnership Return)"
    ensures formType == "K-1" ==> shown == "Schedule K-1 (Partner's Share)"
    ensures formType != "1065" && formType != "K-1" ==> shown == formType
  {
    if formType == "1065" then "Form 1065 (Partnership Return)"
    else if formType == "K-1" then "Schedule K-1 (Partner's Share)"
    else formType
  }

  /** A label is never relabelled: formatting twice is formatting once. */
  lemma FormatFormTypeIdempotent(formType: string)
    ensures FormatFormType(FormatFormType(formType)) == FormatFormType(formType)
  {
    var l1, l2 := "Form 1065 (Partnership Return)", "Schedule K-1 (Partner's Share)";
    assert l1 != "1065" && l1 != "K-1" by { assert |l1| != 4 && |l1| != 3; }
    assert l2 != "1065" && l2 != "K-1" by { assert |l2| != 4 && |l2| != 3; }
  }
}

=== FILE: tax_system.dfy ===
/**
 * The page controller (`TaxSystem`): six tabs, one completion flag per stage,
 * tab gating, the Previous/Next buttons and the `onComplete` callbacks the
 * stage screens call.
 */
module TaxSystem {
  import opened Optional

  /** The six stages, in tab order. */
  datatype Stage = DataCollection | DataProcessing | FileGeneration | FileDistribution | Approval | EFileSubmission

  /** Position of a stage in `tabs`. */
  function Index(s: Stage): (i: nat)
    ensures i < 6
  {
    match s
    case DataCollection => 0
    case DataProcessing => 1
    case FileGeneration => 2
    case FileDistribution => 3
    case Approval => 4
    case EFileSubmission => 5
  }

  /** `tabs[i]`. */
  function StageAt(i: nat): (s: Stage)
    requires i < 6
    ensures Index(s) == i
  {
    [DataCollection, DataProcessing, FileGeneration, FileDistribution, Approval, EFileSubmission][i]
  }

  /** The tab's `value` string. */
  function TabValue(s: Stage): string {
    match s
    case DataCollection => "data-collection"
    case DataProcessing => "data-processing"
    case FileGeneration => "file-generation"
    case FileDistribution => "file-distribution"
    case Approval => "approval"
    case EFileSubmission => "e-file-submission"
  }

  /** Distinct tabs have distinct values, so `tabs.indexOf(currentTab)` finds the stage itself. */
  lemma TabValuesDistinct(s: Stage, t: Stage)
    ensures TabValue(s) == TabValue(t) <==> s == t
    ensures Index(s) == Index(t) <==> s == t
  {
  }

  /** The page's completion-flag record (`taxData` in the page). */
  datatype TaxStatus = TaxStatus(
    collected: bool,
    processed: bool,
    filesGenerated: bool,
    filesDistributed: bool,
    approved: bool,
    submitted: bool)

  const NoneCompleted := TaxStatus(false, false, false, false, false, false)

  /** The flag stage `s` sets when it completes. */
  function Flag(t: TaxStatus, s: Stage): bool {
    match s
    case DataCollection => t.collected
    case DataProcessing => t.processed
    case FileGeneration => t.filesGenerated
    case FileDistribution => t.filesDistributed
    case Approval => t.approved
    case EFileSubmission => t.submitted
  }

  /** `Partial<typeof taxData>`: each flag either named (with a value) or absent. */
  datatype StatusPatch = StatusPatch(
    collected: Option<bool>,
    processed: Option<bool>,
    filesGenerated: Option<bool>,
    filesDistributed: Option<bool>,
    approved: Option<bool>,
    submitted: Option<bool>)

  function Entry(p: StatusPatch, s: Stage): Option<bool> {
    match s
    case DataCollection => p.collected
    case DataProcessing => p.processed
    case FileGeneration => p.filesGenerated
    case FileDistribution => p.filesDistributed
    case Approval => p.approved
    case EFileSubmission => p.submitted
  }

  /** `updateTaxStatus`: `{ ...prev, ...status }`. */
  function UpdateTaxStatus(t: TaxStatus, p: StatusPatch): (r: TaxStatus)
    ensures forall s :: Entry(p, s).Some? ==> Flag(r, s) == Entry(p, s).value
    ensures forall s :: Entry(p, s).None? ==> Flag(r, s) == Flag(t, s)
  {
    TaxStatus(
      ValueOr(p.collected, t.collected),
      ValueOr(p.processed, t.processed),
      ValueOr(p.filesGenerated, t.filesGenerated),
      ValueOr(p.filesDistributed, t.filesDistributed),
      ValueOr(p.approved, t.approved),
      ValueOr(p.submitted, t.submitted))
  }

  /** The patch stage `s`'s `onComplete` passes: its own flag set to true, nothing else named. */
  function CompletionPatch(s: Stage): (p: StatusPatch)
    ensures Entry(p, s) == Some(true)
    ensures forall u :: u != s ==> Entry(p, u) == None
  {
    var only := (u: Stage) => if u == s then Some(true) else None;
    StatusPatch(only(DataCollection), only(DataProcessing), only(FileGeneration),
                only(FileDistribution), only(Approval), only(EFileSubmission))
  }

  /** A stage's `onComplete` sets exactly its own flag and never clears one. */
  lemma CompleteSetsOneFlag(t: TaxStatus, s: Stage)
    ensures Flag(UpdateTaxStatus(t, CompletionPatch(s)), s)
    ensures forall u :: u != s ==> Flag(UpdateTaxStatus(t, CompletionPatch(s)), u) == Flag(t, u)
  {
  }

  /** The `disabled` attribute of each tab trigger, negated. */
  function TabEnabled(t: TaxStatus, s: Stage): bool {
    match s
    case DataCollection => true
    case DataProcessing => t.collected
    case FileGeneration => t.processed
    case FileDistribution => t.filesGenerated
    case Approval => t.filesDistributed
    case EFileSubmission => t.approved
  }

  /** Tab 1 is always enabled; any later tab exactly when the stage before it is complete. */
  lemma TabGating(t: TaxStatus, s: Stage)
    ensures Index(s) == 0 ==> TabEnabled(t, s)
    ensures Index(s) > 0 ==> (TabEnabled(t, s) <==> Flag(t, StageAt(Index(s) - 1)))
  {
  }

  /** The page: the visible tab and the completion flags. */
  datatype Page = Page(currentTab: Stage, taxData: TaxStatus)

  const InitialPage := Page(DataCollection, NoneCompleted)

  /** The toasts the page itself raises. */
  datatype Toast = NoToast | StatusUpdated | StepIncomplete

  datatype Outcome = Outcome(page: Page, toast: Toast)

  /** The page's inputs. `StageCompleted` is the visible screen calling its `onComplete`. */
  datatype Event = TabClicked(target: Stage) | PreviousStep | NextStep | StageCompleted

  /** A click on a tab trigger; a disabled trigger ignores it. */
  function SelectTab(p: Page, target: Stage): (r: Outcome)
    ensures r.toast == NoToast && r.page.taxData == p.taxData
    ensures r.page.currentTab == (if TabEnabled(p.taxData, target) then target else p.currentTab)
  {
    if TabEnabled(p.taxData, target) then Outcome(p.(currentTab := target), NoToast)
    else Outcome(p, NoToast)
  }

  /** The Previous Step button (disabled on the first tab, where it would do nothing anyway). */
  function Previous(p: Page): (r: Outcome)
    ensures r.toast == NoToast && r.page.taxData == p.taxData
    ensures Index(p.currentTab) > 0 ==> Index(r.page.currentTab) == Index(p.currentTab) - 1
    ensures Index(p.currentTab) == 0 ==> r.page == p
  {
    var i := Index(p.currentTab);
    if i > 0 then Outcome(p.(currentTab := StageAt(i - 1)), NoToast) else Outcome(p, NoToast)
  }

  /** The Next Step button: it advances only past a completed stage and does nothing on the last tab. */
  function Next(p: Page): (r: Outcome)
    ensures r.page.taxData == p.taxData
    ensures Index(p.currentTab) == 5 ==> r == Outcome(p, NoToast)
    ensures Index(p.currentTab) < 5 && Flag(p.taxData, p.currentTab) ==>
              Index(r.page.currentTab) == Index(p.currentTab) + 1 && r.toast == NoToast
    ensures Index(p.currentTab) < 5 && !Flag(p.taxData, p.currentTab) ==>
              r.page == p && r.toast == StepIncomplete
  {
    var i := Index(p.currentTab);
    if i < 5 then
      if Flag(p.taxData, StageAt(i)) then Outcome(p.(currentTab := StageAt(i + 1)), NoToast)
      else Outcome(p, StepIncomplete)
    else Outcome(p, NoToast)
  }

  /** `disabled` of the Next button. */
  predicate NextDisabled(p: Page) {
    p.currentTab == EFileSubmission && p.taxData.submitted
  }

  /** Pressing Next where it is disabled would have changed nothing anyway. */
  lemma NextDisabledIsInert(p: Page)
    ensures NextDisabled(p) ==> Next(p) == Outcome(p, NoToast)
  {
  }

  /** The visible screen completes its stage. */
  function Complete(p: Page): (r: Outcome)
    ensures r.toast == StatusUpdated && r.page.currentTab == p.currentTab
    ensures r.page.taxData == UpdateTaxStatus(p.taxData, CompletionPatch(p.currentTab))
  {
    Outcome(p.(taxData := UpdateTaxStatus(p.taxData, CompletionPatch(p.currentTab))), StatusUpdated)
  }

  function Step(p: Page, e: Event): Outcome {
    match e
    case TabClicked(target) => SelectTab(p, target)
    case PreviousStep => Previous(p)
    case NextStep => Next(p)
    case StageCompleted => Complete(p)
  }

  /** The page after a sequence of events. */
  function Run(p: Page, events: seq<Event>): Page
    decreases |events|
  {
    if |events| == 0 then p else Run(Step(p, events[0]).page, events[1..])
  }

  /** Every true flag's predecessors are true: the completed stages form a prefix. */
  ghost predicate FlagsArePrefix(t: TaxStatus) {
    forall i, j :: 0 <= i < j < 6 && Flag(t, StageAt(j)) ==> Flag(t, StageAt(i))
  }

  /** The page invariant: completed stages form a prefix and the visible tab is an enabled one. */
  ghost predicate Valid(p: Page) {
    FlagsArePrefix(p.taxData) && TabEnabled(p.taxData, p.currentTab)
  }

  /** How many stages are complete. */
  function CompletedCount(t: TaxStatus): (n: nat)
    ensures n <= 6
  {
    (if t.collected then 1 else 0) + (if t.processed then 1 else 0)
    + (if t.filesGenerated then 1 else 0) + (if t.filesDistributed then 1 else 0)
    + (if t.approved then 1 else 0) + (if t.submitted then 1 else 0)
  }

  /** Under the invariant, the true flags are exactly the first `CompletedCount` stages and the tab lies within reach. */
  lemma ValidMeansPrefix(p: Page)
    requires Valid(p)
    ensures forall i :: 0 <= i < 6 ==> (Flag(p.taxData, StageAt(i)) <==> i < CompletedCount(p.taxData))
    ensures Index(p.currentTab) <= CompletedCount(p.taxData)
  {
    var t := p.taxData;
    assert Flag(t, StageAt(0)) == t.collected && Flag(t, StageAt(1)) == t.processed;
    assert Flag(t, StageAt(2)) == t.filesGenerated && Flag(t, StageAt(3)) == t.filesDistributed;
    assert Flag(t, StageAt(4)) == t.approved && Flag(t, StageAt(5)) == t.submitted;
  }

  lemma InitialPageValid()
    ensures Valid(InitialPage)
    ensures InitialPage.currentTab == DataCollection && CompletedCount(InitialPage.taxData) == 0
  {
  }

  /** One event keeps the invariant, provided completions come only from the visible screen. */
  lemma StepKeepsValid(p: Page, e: Event)
    requires Valid(p)
    ensures Valid(Step(p, e).page)
  {
    var t := p.taxData;
    assert Flag(t, StageAt(0)) == t.collected && Flag(t, StageAt(1)) == t.processed;
    assert Flag(t, StageAt(2)) == t.filesGenerated && Flag(t, StageAt(3)) == t.filesDistributed;
    assert Flag(t, StageAt(4)) == t.approved && Flag(t, StageAt(5)) == t.submitted;
    var t' := Step(p, e).page.taxData;
    assert Flag(t', StageAt(0)) == t'.collected && Flag(t', StageAt(1)) == t'.processed;
    assert Flag(t', StageAt(2)) == t'.filesGenerated && Flag(t', StageAt(3)) == t'.filesDistributed;
    assert Flag(t', StageAt(4)) == t'.approved && Flag(t', StageAt(5)) == t'.submitted;
  }

  /** No event clears a flag. */
  lemma StepMonotone(p: Page, e: Event)
    ensures forall s :: Flag(p.taxData, s) ==> Flag(Step(p, e).page.taxData, s)
  {
  }

  lemma {:induction false} RunKeepsValid(p: Page, events: seq<Event>)
    requires Valid(p)
    ensures Valid(Run(p, events))
    decreases |events|
  {
    if |events| > 0 {
      StepKeepsValid(p, events[0]);
      RunKeepsValid(Step(p, events[0]).page, events[1..]);
    }
  }

  lemma {:induction false} RunMonotone(p: Page, events: seq<Event>)
    ensures forall s :: Flag(p.taxData, s) ==> Flag(Run(p, events).taxData, s)
    decreases |events|
  {
    if |events| > 0 {
      StepMonotone(p, events[0]);
      RunMonotone(Step(p, events[0]).page, events[1..]);
    }
  }

  /**
   * From the initial page, whatever the events: a stage is complete only if
   * every earlier one is, and the visible tab is at most one past the last
   * completed stage.
   */
  lemma ReachableInvariant(events: seq<Event>)
    ensures Valid(Run(InitialPage, events))
    ensures Index(Run(InitialPage, events).currentTab) <= CompletedCount(Run(InitialPage, events).taxData)
  {
    InitialPageValid();
    RunKeepsValid(InitialPage, events);
    ValidMeansPrefix(Run(InitialPage, events));
  }
}

=== FILE: workflow.dfy ===
/**
 * The page and its screens together: the screens share the service's current
 * filing (`store`), a screen mounts from it whenever its tab is shown, and a
 * screen's `handleComplete` is what fires the page's `onComplete`.
 */
module Workflow {
  import opened Optional
  import opened TaxData
  import opened TaxApi
  import opened TaxSystem
  import CollectionScreen
  import ProcessingScreen
  import GenerationScreen
  import DistributionScreen
  import ApprovalScreen
  import EFileScreen

  /** Before any fetch no screen finds a filing, so no stage past the first can be completed. */
  lemma NothingBeforeFetch()
    ensures InitialStore.spvId == "" && InitialStore.taxYear == "" && InitialStore.entityName == ""
    ensures InitialStore.entityTaxId == "" && InitialStore.investors == [] && InitialStore.taxForms == []
    ensures ProcessingScreen.Mount(InitialStore).taxData == None
    ensures !GenerationScreen.HandleComplete(GenerationScreen.Mount(InitialStore))
    ensures !DistributionScreen.HandleComplete(DistributionScreen.Mount(InitialStore))
    ensures !ApprovalScreen.HandleComplete(ApprovalScreen.Mount(InitialStore))
    ensures !EFileScreen.HandleComplete(EFileScreen.Mount(InitialStore))
  {
  }

  /**
   * Once processing has run, the File Generation screen mounts as already
   * generated: its start button is disabled, so `generateTaxFiles` is not
   * reachable from it and the forms keep whatever download URL they had.
   */
  lemma GenerationSkippedAfterProcessing(fetched: Filing)
    requires HasSpv(fetched)
    ensures var g := GenerationScreen.Mount(ProcessTaxData(fetched));
            g.generated && !GenerationScreen.StartEnabled(g) && GenerationScreen.HandleComplete(g)
  {
    GenerationScreen.AllGeneratedMeansAtLeast(ProcessTaxData(fetched).taxForms);
  }

  /** The visible screen completes its stage and the user presses Next. */
  function CompleteAndAdvance(p: Page): (r: Page)
    requires Index(p.currentTab) < 5
    ensures Flag(r.taxData, p.currentTab)
    ensures Index(r.currentTab) == Index(p.currentTab) + 1
    ensures forall s :: s != p.currentTab ==> Flag(r.taxData, s) == Flag(p.taxData, s)
  {
    var done := Complete(p).page;
    CompleteSetsOneFlag(p.taxData, p.currentTab);
    Next(done).page
  }

  /** Data Collection on the first tab: load the list, pick the first SPV, fetch it, complete. */
  method CollectStage(p: Page, year: nat, entityDraw: EntityTaxNumber, investorDraw: nat -> InvestorTaxNumber)
    returns (p': Page, store: Filing)
    requires p.currentTab == DataCollection
    ensures p'.currentTab == DataProcessing && p'.taxData.collected
    ensures forall s :: s != DataCollection ==> Flag(p'.taxData, s) == Flag(p.taxData, s)
    ensures store == FetchSPVDetails("spv-001", year, entityDraw, investorDraw) && HasSpv(store)
  {
    var c := CollectionScreen.Initial(year);
    c := CollectionScreen.FetchSpvs(c, true);
    c := CollectionScreen.SelectSpv(c, 0);
    var e := CollectionScreen.FetchSpvDetails(c, InitialStore, true, year, entityDraw, investorDraw);
    c, store := e.screen, e.store;
    assert CollectionScreen.HandleComplete(c);
    p' := CompleteAndAdvance(p);
  }

  /** Data Processing: mount, run with the service succeeding, complete. */
  method ProcessStage(p: Page, store: Filing) returns (p': Page, store': Filing)
    requires p.currentTab == DataProcessing && HasSpv(store)
    ensures p'.currentTab == FileGeneration && p'.taxData.processed
    ensures forall s :: s != DataProcessing ==> Flag(p'.taxData, s) == Flag(p.taxData, s)
    ensures store' == ProcessTaxData(store)
  {
    var screen := ProcessingScreen.Mount(GetCurrentTaxData(store));
    var trace;
    screen, store', trace := ProcessingScreen.StartProcessing(screen, store, true);
    assert ProcessingScreen.HandleComplete(screen);
    p' := CompleteAndAdvance(p);
  }

  /** File Generation: the screen mounts already generated, so it is completed without a service call. */
  method GenerateStage(p: Page, store: Filing) returns (p': Page)
    requires p.currentTab == FileGeneration && HasSpv(store) && AllFormsAtLeast(store.taxForms, Generated)
    ensures p'.currentTab == FileDistribution && p'.taxData.filesGenerated
    ensures forall s :: s != FileGeneration ==> Flag(p'.taxData, s) == Flag(p.taxData, s)
  {
    var screen := GenerationScreen.Mount(GetCurrentTaxData(store));
    GenerationScreen.AllGeneratedMeansAtLeast(store.taxForms);
    assert GenerationScreen.HandleComplete(screen);
    p' := CompleteAndAdvance(p);
  }

  /** File Distribution: mount, send to every investor, the service succeeding, complete. */
  method DistributeStage(p: Page, store: Filing) returns (p': Page, store': Filing)
    requires p.currentTab == FileDistribution && HasSpv(store)
    ensures p'.currentTab == Approval && p'.taxData.filesDistributed
    ensures forall s :: s != FileDistribution ==> Flag(p'.taxData, s) == Flag(p.taxData, s)
    ensures store' == DistributeTaxFiles(store)
  {
    var screen := DistributionScreen.Mount(GetCurrentTaxData(store));
    var trace;
    screen, store', trace := DistributionScreen.DistributeFiles(screen, store, true);
    assert DistributionScreen.HandleComplete(screen);
    p' := CompleteAndAdvance(p);
  }

  /** Approval: tick the three checks, approve with the service succeeding, complete. */
  method ApproveStage(p: Page, store: Filing) returns (p': Page, store': Filing)
    requires p.currentTab == Approval && HasSpv(store)
    ensures p'.currentTab == EFileSubmission && p'.taxData.approved
    ensures forall s :: s != Approval ==> Flag(p'.taxData, s) == Flag(p.taxData, s)
    ensures store' == TaxApi.ApproveTaxFiling(store)
  {
    var screen := ApprovalScreen.Mount(GetCurrentTaxData(store));
    screen := ApprovalScreen.SetDialogOpen(screen, true);
    screen := ApprovalScreen.ToggleCheck(screen, ApprovalScreen.ReviewedForms);
    screen := ApprovalScreen.ToggleCheck(screen, ApprovalScreen.AllInfoCorrect);
    screen := ApprovalScreen.ToggleCheck(screen, ApprovalScreen.AuthorizeSubmission);
    ApprovalScreen.AllChecksConfirmedMeans(screen.checks);
    var e := ApprovalScreen.ApproveTaxFiling(screen, store, true);
    screen, store' := e.screen, e.store;
    assert ApprovalScreen.HandleComplete(screen);
    p' := CompleteAndAdvance(p);
  }

  /** E-File Submission: submit with the mock's reply and complete; Next does nothing on the last tab. */
  method SubmitStage(p: Page, store: Filing, draw: ConfirmationNumber)
    returns (p': Page, store': Filing, confirmationId: string)
    requires p.currentTab == EFileSubmission && HasSpv(store)
    ensures p'.currentTab == EFileSubmission && p'.taxData.submitted
    ensures forall s :: s != EFileSubmission ==> Flag(p'.taxData, s) == Flag(p.taxData, s)
    ensures store' == SubmittedFiling(store) && IsConfirmationId(confirmationId)
  {
    var screen := EFileScreen.Mount(GetCurrentTaxData(store));
    var progressTrace, stageTrace;
    screen, store', progressTrace, stageTrace :=
      EFileScreen.SubmitEFile(screen, store, EFileScreen.Resolved(SubmitResponse(draw)));
    assert EFileScreen.HandleComplete(screen);
    confirmationId := screen.confirmationId;
    p' := Complete(p).page;
    CompleteSetsOneFlag(p.taxData, p.currentTab);
    p' := Next(p').page;
  }

  /**
   * The whole workflow with every service call succeeding: all six flags end
   * true on the last tab, every form is submitted and every investor approved,
   * a confirmation id is shown, and no form ever received a download URL.
   */
  method HappyPath(year: nat, entityDraw: EntityTaxNumber, investorDraw: nat -> InvestorTaxNumber,
                   draw: ConfirmationNumber)
    returns (page: Page, store: Filing, confirmationId: string)
    ensures page.currentTab == EFileSubmission && CompletedCount(page.taxData) == 6
    ensures |store.taxForms| == 2 && AllFormsAre(store.taxForms, Submitted)
    ensures |store.investors| == 5 && AllInvestorsAre(store.investors, K1Approved)
    ensures forall i :: 0 <= i < |store.taxForms| ==> store.taxForms[i].downloadUrl == None
    ensures IsConfirmationId(confirmationId)
  {
    var fetched, processed, distributed, approved;
    var p1, p2, p3, p4, p5;
    p1, fetched := CollectStage(InitialPage, year, entityDraw, investorDraw);
    p2, processed := ProcessStage(p1, fetched);
    p3 := GenerateStage(p2, processed);
    p4, distributed := DistributeStage(p3, processed);
    p5, approved := ApproveStage(p4, distributed);
    page, store, confirmationId := SubmitStage(p5, approved, draw);
    assert Flag(p1.taxData, DataCollection);
    assert Flag(p2.taxData, DataCollection) && Flag(p3.taxData, DataCollection)
        && Flag(p4.taxData, DataCollection) && Flag(p5.taxData, DataCollection);
    assert Flag(p3.taxData, DataProcessing) && Flag(p4.taxData, DataProcessing) && Flag(p5.taxData, DataProcessing);
    assert Flag(p4.taxData, FileGeneration) && Flag(p5.taxData, FileGeneration);
    assert Flag(p5.taxData, FileDistribution);
    assert Flag(page.taxData, DataCollection) && Flag(page.taxData, DataProcessing)
        && Flag(page.taxData, FileGeneration) && Flag(page.taxData, FileDistribution)
        && Flag(page.taxData, Approval);
  }

  /**
   * The completion flags do not follow the filing: after a full run, going
   * back to the first tab (always enabled) and fetching again replaces the
   * filing with an all-pending one while every flag stays true.
   */
  method RefetchAfterCompletion(year: nat, entityDraw: EntityTaxNumber, investorDraw: nat -> InvestorTaxNumber,
                                draw: ConfirmationNumber)
    returns (page: Page, store: Filing)
    ensures CompletedCount(page.taxData) == 6 && page.currentTab == DataCollection
    ensures AllFormsAre(store.taxForms, Pending) && AllInvestorsAre(store.investors, K1Pending)
  {
    var confirmationId;
    page, store, confirmationId := HappyPath(year, entityDraw, investorDraw, draw);
    page := TaxSystem.SelectTab(page, DataCollection).page;
    var c := CollectionScreen.Initial(year);
    c := CollectionScreen.FetchSpvs(c, true);
    c := CollectionScreen.SelectSpv(c, 1);
    var e := CollectionScreen.FetchSpvDetails(c, store, true, year, entityDraw, investorDraw);
    store := e.store;
  }
}
